=== FILE: README.md ===
# ExcelUtility core, modelled in Dafny

`ExcelUtility` is a C# class that moves tabular data between SQL Server,
delimited text files and Excel workbooks. Most of it drives external
systems: SQL Server sessions, ADODB recordsets, OLE DB readers, the Excel
COM host. This project models the deterministic logic inside that plumbing
and proves properties of it:

- **Delimited lines** (`DelimitedLines`, `FlatFiles`). The pipe and text
  exporters build each line by appending `field + sep` for every field and
  then cutting at the last separator. The model runs that algorithm with
  ordinal character search (`Text`) and proves it equals a plain join.
  With zero fields the cut throws. Values holding the separator are not
  escaped, so a line splits back into its row exactly when no value
  contains the separator. Each `WriteLine` call is one record of the file
  image: the header, then one record per row, in reader order. The file
  text ends every record with `\r\n`, and a reader that cuts the text at
  line feeds finds exactly those records when no name or value holds a
  line feed; a value with a line feed starts an extra line. Here a line is
  text ended by a line feed: a lone carriage return inside a value does not
  end one, although some readers would break the value there.
- **Save formats and import descriptors** (`SaveFormats`, `ExcelFiles`,
  `ImportSources`). These cover the `short` file-type switch behind
  `SaveAs`, and the OLE DB descriptor the text-file loader builds from its
  path (folder before the last `\`, file after it, `HDR`, `FMT`). They also
  cover the sheet-source query and the settings each bulk-load overload
  hands to the bulk copy.
- **Sheets** (`Workbooks`). A workbook is a sequence of named sheets, and
  each sheet is a map from `(row, column)` to text. Filling a sheet finds
  or creates it by exact name, clears a reused sheet, and deletes the
  `Sheet1`/`Sheet2`/`Sheet3` placeholders. It then writes the header into
  row 1 and the data block from row 2, column 1.
- **Connections** (`Connections`). There are two slots: the primary
  `SqlConnection` and the secondary ADODB connection used for pasting
  recordsets into sheets. Connect, terminate and the execute guards are
  pure functions over an `Engine` record. The success of every open and
  close is an input (`Env`). A handle the code drops or overwrites while
  it is still open is counted in `orphans`.

External answers are parameters. This covers what a query returns (a
`ResultSet`: column names, and rows rendered as strings), whether a
recordset came back open, whether `SaveAs` succeeded, and where the host
inserts a new sheet (`at`).

The files are `outcomes.dfy`, `text.dfy`, `lines.dfy`, `tables.dfy`,
`connections.dfy`, `flat_files.dfy`, `save_formats.dfy`, `workbooks.dfy`,
`excel_files.dfy` and `import_sources.dfy`. Each file holds one module, and
all of them are verified together.

### Behaviour worth knowing

The model follows the code in each of these cases:

- `terminateDBConnection` acts only when the primary handle is non-null
  and not `Closed`. It keeps the closed primary handle; it does not null
  it. An ADODB close that throws skips the `adodbConnection = null`
  assignment, so that handle survives. If the primary is already closed,
  an open cursor connection is left open
  (`Connections.TerminateSkipsCursorWhenPrimaryClosed`).
- The execute guard is `State != Closed`. A `Broken` primary connection
  passes the guard (`Connections.Execute`).
- `connectToADODB` replaces the cursor handle even when closing the old
  one failed. The old connection is then abandoned while it is still open
  (`Connections.ConnectCursorOrphansOnlyOnFailedClose`).
- A failed connect nulls the primary handle without closing it. If the
  primary had opened before the cursor slot failed, that connection is
  abandoned open (`Connections.Connect`, built on `Connections.Abandon`).
- `terminateDBConnection` swallows a failed close of the primary, and the
  connection then stays usable (`Connections.Terminate`).
- The placeholder deletion also removes the target sheet when the target
  is itself named `Sheet1`/`Sheet2`/`Sheet3`. In the overload that takes a
  workbook, the data is then written to the deleted sheet object and no
  sheet of the workbook holds it (`Workbooks.FillWorksheet`). The overload
  for the active workbook writes through `ActiveSheet` instead, which after
  the deletion is whichever sheet the host activated.

## Model

| member | source | states |
|---|---|---|
| Text.LastIndexOf | ExcelUtility.cs:635 | The result is the highest index holding the character. It is -1 exactly when the character does not occur, and no later position holds the character. |
| Text.Substring | ExcelUtility.cs:1106 | Succeeds exactly when start and length are non-negative and the range fits in the string. It then returns that slice; otherwise it raises ArgumentOutOfRange. |
| Text.SubstringFrom | ExcelUtility.cs:1113 | Succeeds exactly when `0 <= start <= length`. It then returns the suffix; otherwise it raises ArgumentOutOfRange. |
| Text.JoinSnoc | ExcelUtility.cs:631-634 | Joining one more field appends the separator and that field. |
| Text.SplitJoinRoundTrip | ExcelUtility.cs:672-676 | For one or more fields, splitting the joined line gives back the fields exactly when no field contains the separator (both directions). |
| Text.JoinSeparatorCount | ExcelUtility.cs:640-644 | A joined line holds n - 1 separators plus every separator already inside the values. |
| DelimitedLines.AccumulateSeparatorCount | ExcelUtility.cs:631-634 | The field loop (lines 631-634, 640-643, 663-666 and 672-675) puts exactly one separator after every field, so the accumulated string holds one separator per field besides those inside the values. |
| DelimitedLines.AccumulateIsJoinWithTrailingSeparator | ExcelUtility.cs:662-666 | For at least one field, the string the field loop accumulates is the plain join followed by exactly one trailing separator. |
| DelimitedLines.EmitLine | ExcelUtility.cs:630-635 | Cutting at the last separator yields exactly the fields joined by the separator, with no leading or trailing separator. With zero fields, LastIndexOf is -1 and the cut raises ArgumentOutOfRange. |
| DelimitedLines.EmittedSeparatorCount | ExcelUtility.cs:639-644 | An emitted line has n - 1 separators plus those inside the values: nothing is escaped. |
| DelimitedLines.EmittedLineSplits | ExcelUtility.cs:671-676 | Splitting an emitted line recovers the fields exactly when no field contains the separator. |
| FlatFiles.WriteRows | ExcelUtility.cs:637-646 | Row lines come in reader order, and line i is the join of row i. The rows are written completely exactly when every row has a field. Otherwise the file ends at the first row without fields, with ArgumentOutOfRange: every row before it is written and that row is not. |
| FlatFiles.WriteDelimited | ExcelUtility.cs:627-646 | The file is truncated before the query runs. Without a usable connection it is left empty with NotConnected. When the statement fails, it is left empty with that statement's error. With zero columns it is left empty with ArgumentOutOfRange. Otherwise it holds one record per `WriteLine`: the header join, then exactly one joined record per row. |
| FlatFiles.WriteQueryToPipefile | ExcelUtility.cs:625-650 | The pipe exporter always uses '\|'. On a usable connection whose statement succeeds, its file is the header plus one record per row. |
| FlatFiles.WriteQueryToTextFile | ExcelUtility.cs:657-682 | The text exporter uses the caller's separator. On a usable connection whose statement succeeds, its file is the header plus one record per row. |
| FlatFiles.WriteQueryToTextFileDefault | ExcelUtility.cs:657 | Without a separator argument the text exporter separates fields with a tab: the header and every row are joined with '\t'. |
| FlatFiles.ExportSplitsBack | ExcelUtility.cs:657-678 | If no name or value holds the separator, splitting every record of the file recovers the header and every row exactly. |
| FlatFiles.SeparatorInValueBreaksRoundTrip | ExcelUtility.cs:669-676 | A row with a value holding the separator splits back into more fields than it had. |
| FlatFiles.FileText | ExcelUtility.cs:667 | `WriteLine` ends every record with a line terminator: the file text holds one line feed per record plus every line feed inside the records. |
| FlatFiles.ReadRecordsOfFileText | ExcelUtility.cs:667-676 | Records without a line feed are read back from the file text exactly as written. |
| FlatFiles.ExportLinesBreakFree | ExcelUtility.cs:663-676 | The records of an export hold no line feed exactly when no name or value does. |
| FlatFiles.ExportRecordCount | ExcelUtility.cs:657-678 | The file has exactly one line (text ended by a line feed) per row plus the header exactly when no name or value holds a line feed (both directions). |
| FlatFiles.ExportReadsBack | ExcelUtility.cs:657-678 | With no separator and no line feed in any name or value, reading the file text back line by line and splitting each line recovers the header and every row exactly. |
| SaveFormats.SaveFormatOf | ExcelUtility.cs:525-536 | Exactly TXT, CSV, XLS and XLSX are saveable, and XLSX alone uses the host default. Every other code, PIPE included, raises "File type not valid". |
| SaveFormats.SaveFormatRoundTrip | ExcelUtility.cs:551-561 | An accepted file type is recovered from its save format (56 to XLS, -4158 to TXT, 6 to CSV, default to XLSX). |
| SaveFormats.FileTypeRoundTrip | ExcelUtility.cs:551-561 | A save format that stands for a file type is the one the switch chooses for that type. |
| SaveFormats.PipeIsNotSaveable | ExcelUtility.cs:37 | The declared PIPE constant (4) is rejected as "File type not valid". |
| ExcelFiles.SaveWorkbookAs | ExcelUtility.cs:524-537 | The given workbook is saved with the format of its type. An invalid type raises before any save and closes nothing. |
| ExcelFiles.CreateExcelFile | ExcelUtility.cs:544-569 | Succeeds exactly when the type is saveable and SaveAs succeeds. The host holds a document exactly on success, so every failure closes it before rethrowing. |
| ExcelFiles.WriteQueryToWorkbook | ExcelUtility.cs:734-770 | Without a usable primary it raises "no connection" and changes nothing. On success, both slots are usable and the named sheet holds the header and data. The workbook changes only on success. The host is closed exactly when the statement returns no rowset. A successful fill saves exactly when asked, leaves no placeholder sheet, and keeps every other sheet unchanged and in its old order. |
| ExcelFiles.WriteQueryToWorkbookDefault | ExcelUtility.cs:734 | Without the save flag the export into a given workbook saves it whenever it succeeds. |
| ExcelFiles.WriteQueryToActiveWorkbook | ExcelUtility.cs:689-725 | Without a usable primary it raises "no connection". Success needs a rowset and leaves both slots usable. When a host is open, success always saves and the named sheet holds the header and data. No placeholder sheet remains, and every other sheet is unchanged and in its old order. |
| ExcelFiles.ReportIntoNewWorkbook | ExcelUtility.cs:779-823 | Connect with integrated security, export into a new workbook as "Report" and save. The workbook then holds exactly one sheet, "Report", with the header and rows, and no placeholders. |
| Workbooks.FindSheet | ExcelUtility.cs:785-790 | The result is the first position holding exactly that name (case-sensitive), or none when no sheet has it. |
| Workbooks.RemoveDefaultSheets | ExcelUtility.cs:805-810 | Afterwards no sheet is named Sheet1/Sheet2/Sheet3. Every other sheet is kept unchanged, and the sheets kept apart from any one name stay in their old order. |
| Workbooks.WriteRow | ExcelUtility.cs:873-890 | Writing a row sets exactly the cells from the start column rightwards to the values, and leaves every other cell as it was. |
| Workbooks.WriteBlock | ExcelUtility.cs:945-947 | Pasting a block sets exactly the cells of the block to the row values, and leaves every other cell as it was. |
| Workbooks.HeaderAndData | ExcelUtility.cs:912-947 | Row 1, column i+1 holds field name i. Row j+2, column c+1 holds value c of row j. No other cell holds anything. |
| Workbooks.Place | ExcelUtility.cs:791-804 | An existing sheet with the name is cleared in place at its position, and nothing else changes. Otherwise a new empty sheet with the name is inserted at some position, and the other sheets keep their order. Names stay unique. |
| Workbooks.Overwrite | ExcelUtility.cs:813 | The sheet with the name, if it still exists, receives the cells. No other sheet changes. |
| Workbooks.FillWorksheet | ExcelUtility.cs:779-823 | Afterwards names are unique and no placeholder remains. Every other sheet is unchanged and in its old order. The workbook holds exactly those sheets plus the target, unless the target's name is a placeholder name. The target holds exactly the header and data. It saves only when asked. |
| Workbooks.FillIdempotent | ExcelUtility.cs:785-810 | Filling the same sheet twice with the same data gives the workbook of one fill: the sheet is reused and cleared, never duplicated. |
| Workbooks.FillNewWorkbook | ExcelUtility.cs:805-810 | Filling a new three-placeholder workbook leaves exactly the one written sheet. |
| Connections.ProfileOf | ExcelUtility.cs:91-92 | A missing user or password falls back to integrated security. Otherwise both credentials are kept. |
| Connections.CloseCursor | ExcelUtility.cs:220-231 | The handle is cleared exactly when it was null or its close succeeded. A failed close leaves it unchanged. |
| Connections.Terminate | ExcelUtility.cs:1132-1146 | It does nothing unless the primary is usable. Otherwise it closes the primary (keeping the handle, now Closed) and terminates the cursor slot. It leaves the engine live exactly when the primary close failed. |
| Connections.ConnectCursor | ExcelUtility.cs:186-215 | Succeeds exactly when the open succeeds, and a failed open leaves the slot null. An open previous handle is abandoned only when its close failed. |
| Connections.Abandon | ExcelUtility.cs:124-128 | The failed-connect path nulls the primary without closing it, counting an open one as abandoned. |
| Connections.Connect | ExcelUtility.cs:88-180 | The profile is recorded even when connecting fails. Connect succeeds exactly when the old primary closed (or was not usable) and both opens succeed. Success leaves the primary Open and the cursor usable; any failure leaves the primary null. From a closed or null primary, a primary that opened before the cursor slot failed is abandoned open: one more orphan, plus the old cursor connection if its close failed. |
| Connections.Execute | ExcelUtility.cs:387-396 | The database's answer is reached exactly through a non-null, not-Closed primary, Broken included. Otherwise the call raises NotConnected. |
| Connections.ExecuteCursorQuery | ExcelUtility.cs:237-247 | The recordset is returned only through a usable cursor slot. Otherwise the call raises NotConnected. |
| Connections.ExecuteCursorQueryOn | ExcelUtility.cs:255-271 | An unusable caller connection raises "Invalid connection". A failing open raises its own error. A closed recordset is closed again before "no records" is raised, and when the host refuses that close its error is raised instead. Otherwise, and only then, the rows are returned. |
| Connections.EnsureCursor | ExcelUtility.cs:739-742 | A usable cursor slot is left alone. Otherwise it reconnects; success leaves it usable and failure leaves it null. |
| Connections.ReliableConnect | ExcelUtility.cs:159-173 | When every open and close succeeds, connecting from any state makes both slots usable and abandons no connection. |
| Connections.TerminateAfterConnect | ExcelUtility.cs:1134-1145 | After a successful connect and a successful terminate, nothing is usable and every execute raises NotConnected. |
| Connections.TerminateIdempotent | ExcelUtility.cs:1132-1146 | Once a terminate has closed the primary, a second terminate is a no-op whatever its outcomes. |
| Connections.TerminateSkipsCursorWhenPrimaryClosed | ExcelUtility.cs:1134 | With the primary already Closed, terminate leaves an open cursor connection open. |
| Connections.EnsureCursorTwice | ExcelUtility.cs:741-742 | Ensuring the cursor connection twice leaves the one the first call opened, untouched. |
| Connections.ConnectCursorOrphansOnlyOnFailedClose | ExcelUtility.cs:198-202 | Reconnecting an open cursor slot abandons the old connection exactly when closing it failed. |
| ImportSources.SheetQuery | ExcelUtility.cs:1045 | With `query` set, the source is used verbatim. Otherwise the query reads back as a select of exactly that sheet. |
| ImportSources.TextImportSource | ExcelUtility.cs:1106-1113 | It succeeds exactly when the path has a backslash; otherwise it raises ArgumentOutOfRange. The folder, a backslash and the backslash-free file name rebuild the path. HDR follows the flag. FMT is TabDelimited exactly when the tab flag is set, and otherwise carries the delimiter. |
| ImportSources.ExtendedPropertiesRoundTrip | ExcelUtility.cs:1107-1108 | The HDR text reads back as the flag. The FMT text reads back as TabDelimited or the exact delimiter. |
| ImportSources.SheetLoad | ExcelUtility.cs:970-1033 | The plan has its own workbook connection and a select of the named sheet. Rows are validated exactly when no mapping is given, and a given mapping replaces the default. The timeout is 2000. |
| ImportSources.ConnectionLoad | ExcelUtility.cs:1044-1061 | The plan uses the caller's connection, with the raw query or a sheet select. Rows are validated, and the default mapping is used. |
| ImportSources.MappedConnectionLoad | ExcelUtility.cs:1072-1093 | The plan uses the caller's connection and always a sheet select. The mapping replaces the default, and rows are not validated. |
| ImportSources.TextFileLoad | ExcelUtility.cs:1103-1127 | It fails exactly for a path without a backslash. Otherwise the plan has its own text connection and a select of the file name. Rows are not validated, and the default mapping is used. |
| ImportSources.TextFileLoadDefault | ExcelUtility.cs:1103 | Without the optional arguments the file has a header row and, unless tab-delimited, is pipe-delimited. |
| ImportSources.TabDelimitedIgnoresDelimiter | ExcelUtility.cs:1107-1108 | With a tab-delimited file, the delimiter argument has no effect on the load. |

## Left out

- Database and OLE DB input/output: sessions, `ExecuteReader`, `ExecuteScalar`, `ExecuteNonQuery`, recordset cursors, command and connection timeouts, and `adModeShareDenyNone`. These are external systems; their answers are parameters of the model.
- `SqlBulkCopy` streaming and how column mappings are applied: it is a foreign library call. `ValidatingDataReader` comes from `DataStreams.ETL`, which is not part of this model. A load is modelled as the plan it sets up. The mapped loads also print every mapping to the console (lines 1021 and 1082); that output is not modelled.
- Connection-string text: `SqlConnectionStringBuilder` is library internals. The ADODB format string of `connectToADODB` is replaced by the `Profile` value it is built from. The text-driver and workbook-driver strings are modelled as plain helpers without contracts of their own.
- What each `executeQuery`, `executeScalar`, `executeCommand` and `executeProcedure` overload does past its guard: the statement runs at the server. All of them share one guard, `Connections.Execute`, and their result is the `answer` parameter.
- `executeProcedure` parsing the return value with `Int32.Parse`: this is driver-value parsing. Its guard is modelled by `Connections.Execute`.
- Rendering values to text (`reader[i]` via `ToString`, `DBNull` as empty): result sets arrive with values already rendered as strings.
- Failures in the middle of a write (a `StreamWriter` or `reader.Read` error) and COM errors inside a sheet fill other than the naming refusals listed below: these are external faults. The model's fill cannot fail, so the catch path that closes the host after a failed fill is not represented.
- Cell formatting, `AutoFit`, `Select`, `Marshal.*ComObject` and `GC.Collect`: these are presentation and interop lifetime, not behaviour.
- `openExcelFile`, and `closeExcelFile` beyond the fact that it was called (`hostClosed`): the host process lifecycle is outside the model. The same goes for the host that `createExcelFile` replaces without closing.
- The finalizer and `IDisposable.Dispose`: they are driven by the garbage collector.
- Deleting sheets while enumerating them: the model deletes every placeholder, as a filter would. The host's enumerator behaviour under deletion is not modelled.
- Excel's refusal to delete the last sheet, and where `Worksheets.Add()` inserts a sheet: the position is an input, `at`.
- Workbooks.FillWorksheet: when the target is named Sheet1/Sheet2/Sheet3, the model drops the written data with the deleted sheet. What the host does with writes to a deleted sheet object is not modelled.
- Workbooks.FillWorksheet: it requires unique sheet names in the input workbook. This is an invariant the host maintains, not something the code checks.
- ExcelFiles.WriteQueryToWorkbook: a null workbook skips the fill without closing the recordset. The model does not track recordset handles.
- Connections.Terminate: the outcome of a close is a free input. The model makes no claim about which closes can fail on an already-closed handle.
- Text.LastIndexOf: the search is ordinal, character by character. Lines 635, 644, 1106 and 1113 call the `LastIndexOf(string)` overload, which compares under the current culture. For the one-character searches `"|"` and `"\\"` it finds the same position unless the text holds characters the culture ignores or combines with them, and the model does not represent culture rules. Lines 667 and 676 use the ordinal `LastIndexOf(char)` overload.
- Workbooks.FillWorksheet: the model accepts every sheet name. The host refuses a name that is empty, longer than 31 characters, or holds one of `: \ / ? * [ ]`. For such a name the rename at line 795 or 843 throws after `Worksheets.Add()` has already added an automatically named sheet, and the overload that takes a workbook then closes the host (line 760). The model instead reports a successful fill under that name.
- Workbooks.FillWorksheet: sheet names are compared exactly, as `String.Equals` does. The host, however, refuses a rename to a name that differs from an existing sheet's only in letter case. There the code throws at line 795 or 843, and the overload that takes a workbook closes the host. The model instead adds a second sheet under the new name, and its uniqueness invariant is case-sensitive.
- ExcelFiles.WriteQueryToActiveWorkbook: when the target is named Sheet1/Sheet2/Sheet3, the model promises nothing about where the data lands. The code writes through `ActiveSheet` after deleting the target, and which sheet the host activates then is not modelled.

=== FILE: connections.dfy ===
/** The two connection slots of the utility and their lifecycle
    (ExcelUtility.cs: connectToDB, connectToADODB, terminateADODBConnection,
    terminateDBConnection and the guards of the execute methods).

    The primary slot holds the row-streaming SqlConnection, the cursor slot
    the ADODB connection used to paste recordsets into sheets. Whether an
    individual open or close succeeds is decided outside the library, so
    each such outcome is an input (`Env`). A handle that the code drops or
    overwrites while it is still open is counted in `orphans`: the
    connection stays open on the server with nothing left to close it. */
module Connections {
  import opened Outcomes
  import opened Tables

  datatype Credentials = Integrated | Login(user: string, password: string)

  /** Server, catalog and credentials recorded by the last connect call. */
  datatype Profile = Profile(server: string, catalog: string, credentials: Credentials)

  /** The states of the primary connection that matter here. `Broken` is a
      link the server dropped: it is not `Closed`. */
  datatype LinkState = Open | Closed | Broken

  datatype PrimarySlot = NoPrimary | Primary(state: LinkState)

  /** The cursor slot; `open` stands for an ADODB `State` other than 0. */
  datatype CursorSlot = NoCursor | Cursor(open: bool)

  datatype Engine = Engine(profile: Option<Profile>, primary: PrimarySlot, cursor: CursorSlot, orphans: nat)

  /** The outcome of every open and close one call may attempt, in the
      order the code attempts them. */
  datatype Env = Env(
    closePrimary: bool,   // dbConnection.Close() in terminateDBConnection
    closeCursor: bool,    // adodbConnection.Close() in terminateADODBConnection
    openPrimary: bool,    // dbConnection.Open()
    recloseCursor: bool,  // the close connectToADODB attempts on a still-open handle
    openCursor: bool)     // adodbConnection.Open()

  /** The engine after a call, and whether the call threw. */
  datatype Step = Step(engine: Engine, status: Result<()>)

  /** A newly constructed utility: no profile, both handles null. */
  const Fresh := Engine(None, NoPrimary, NoCursor, 0)

  /** Every open and close succeeds. */
  const Reliable := Env(true, true, true, true, true)

  /** The guard of every execute method: a non-null handle that is not Closed. */
  predicate Usable(p: PrimarySlot) {
    p.Primary? && p.state != Closed
  }

  predicate Live(e: Engine) {
    Usable(e.primary)
  }

  /** The guard on the cursor slot: a non-null handle whose State is not 0. */
  predicate CursorUsable(c: CursorSlot) {
    c.Cursor? && c.open
  }

  /** The overload choice of connectToDB: a missing user or password falls
      back to integrated security, discarding whichever one was given. */
  function ProfileOf(server: string, catalog: string, user: Option<string>, password: Option<string>): (p: Profile)
    ensures p.server == server && p.catalog == catalog
    ensures p.credentials.Integrated? <==> user.None? || password.None?
    ensures p.credentials.Login? ==> user == Some(p.credentials.user) && password == Some(p.credentials.password)
  {
    if user.None? || password.None? then Profile(server, catalog, Integrated)
    else Profile(server, catalog, Login(user.value, password.value))
  }

  /** terminateADODBConnection: a close that throws is swallowed before the
      handle is cleared, so the handle survives it. */
  function CloseCursor(c: CursorSlot, closes: bool): (c': CursorSlot)
    ensures c' == NoCursor <==> c.NoCursor? || closes
    ensures c' != NoCursor ==> c' == c
  {
    if c.Cursor? && !closes then c else NoCursor
  }

  /** terminateDBConnection: nothing happens unless the primary connection is
      usable; otherwise the primary is closed (the handle is kept) and the
      cursor slot is terminated, close failures being swallowed. */
  function Terminate(e: Engine, env: Env): (e': Engine)
    ensures !Live(e) ==> e' == e
    ensures Live(e) && env.closePrimary ==> e'.primary == Primary(Closed)
    ensures Live(e) && !env.closePrimary ==> e'.primary == e.primary
    ensures Live(e) ==> e'.cursor == CloseCursor(e.cursor, env.closeCursor)
    ensures e'.profile == e.profile && e'.orphans == e.orphans
    ensures Live(e') <==> Live(e) && !env.closePrimary
  {
    if !Live(e) then e
    else
      e.(primary := if env.closePrimary then Primary(Closed) else e.primary,
         cursor := CloseCursor(e.cursor, env.closeCursor))
  }

  /** connectToADODB: a still-open cursor handle is terminated first; a new
      connection then replaces the handle whether or not that close worked,
      and a failed open leaves the slot null. */
  function ConnectCursor(e: Engine, env: Env): (s: Step)
    ensures s.status.Ok? <==> env.openCursor
    ensures s.status.Ok? ==> CursorUsable(s.engine.cursor)
    ensures s.status.Err? ==> s.engine.cursor == NoCursor && s.status.error == ConnectFailed
    ensures s.engine.primary == e.primary && s.engine.profile == e.profile
    ensures s.engine.orphans == e.orphans + (if CursorUsable(e.cursor) && !env.recloseCursor then 1 else 0)
  {
    var prior := if CursorUsable(e.cursor) then CloseCursor(e.cursor, env.recloseCursor) else e.cursor;
    var orphans := e.orphans + (if CursorUsable(prior) then 1 else 0);
    if env.openCursor then Step(e.(cursor := Cursor(true), orphans := orphans), Ok(()))
    else Step(e.(cursor := NoCursor, orphans := orphans), Err(ConnectFailed))
  }

  /** The catch block of connectToDB: the primary handle is nulled without
      being closed. */
  function Abandon(e: Engine): (s: Step)
    ensures s.engine.primary == NoPrimary && s.status == Err(ConnectFailed)
    ensures s.engine.cursor == e.cursor && s.engine.profile == e.profile
    ensures s.engine.orphans == e.orphans + (if Usable(e.primary) then 1 else 0)
  {
    Step(e.(primary := NoPrimary, orphans := e.orphans + if Usable(e.primary) then 1 else 0), Err(ConnectFailed))
  }

  /** connectToDB, both overloads. The profile is recorded before anything
      can fail. A usable primary is terminated and reused, which fails if its
      close failed (the connection string cannot change on an open
      connection); otherwise a new handle is made. Then the primary opens and
      the cursor slot connects; any failure nulls the primary handle. */
  function Connect(e: Engine, server: string, catalog: string, user: Option<string>, password: Option<string>, env: Env): (s: Step)
    ensures s.engine.profile == Some(ProfileOf(server, catalog, user, password))
    ensures s.status.Ok? <==> (!Live(e) || env.closePrimary) && env.openPrimary && env.openCursor
    ensures s.status.Ok? ==> s.engine.primary == Primary(Open) && CursorUsable(s.engine.cursor)
    ensures s.status.Err? ==> s.engine.primary == NoPrimary && s.status.error == ConnectFailed
    ensures s.engine.orphans >= e.orphans
    ensures !Live(e) && env.openPrimary && !env.openCursor ==>
      s.engine.orphans == e.orphans + 1 + (if CursorUsable(e.cursor) && !env.recloseCursor then 1 else 0)
  {
    var e0 := e.(profile := Some(ProfileOf(server, catalog, user, password)));
    var e1 := if Live(e0) then Terminate(e0, env) else e0.(primary := Primary(Closed));
    if e1.primary != Primary(Closed) || !env.openPrimary then Abandon(e1)
    else
      var s := ConnectCursor(e1.(primary := Primary(Open)), env);
      if s.status.Err? then Abandon(s.engine) else s
  }

  /** The guard shared by executeQuery, executeScalar, executeCommand and
      executeProcedure (every overload): `answer` is what the database would
      return or raise, and it is reached only through a usable handle. */
  function Execute<T>(p: PrimarySlot, answer: Result<T>): (r: Result<T>)
    ensures Usable(p) ==> r == answer
    ensures !Usable(p) ==> r == Err(NotConnected)
  {
    if Usable(p) then answer else Err(NotConnected)
  }

  /** What an ADODB recordset open produced: rows, or a recordset whose
      State is 0 because the statement returned none. */
  datatype Rowset = OpenRowset(data: ResultSet) | ClosedRowset

  /** executeADODBQuery(query): runs on the cursor slot only when it is usable. */
  function ExecuteCursorQuery(c: CursorSlot, answer: Result<Rowset>): (r: Result<Rowset>)
    ensures CursorUsable(c) ==> r == answer
    ensures !CursorUsable(c) ==> r == Err(NotConnected)
  {
    if CursorUsable(c) then answer else Err(NotConnected)
  }

  /** executeADODBQuery(query, conn): a caller-supplied connection must be
      usable, and a recordset that comes back closed is an error. The code
      closes that recordset before raising "no records"; whether the close
      succeeds is an input (`closes`), and a failing close raises its own
      error instead. */
  function ExecuteCursorQueryOn(conn: CursorSlot, answer: Result<Rowset>, closes: bool): (r: Result<ResultSet>)
    ensures !CursorUsable(conn) ==> r == Err(InvalidConnection)
    ensures CursorUsable(conn) && answer.Err? ==> r == Err(answer.error)
    ensures CursorUsable(conn) && answer == Ok(ClosedRowset) ==> r == Err(if closes then NoRecords else CloseRefused)
    ensures r.Ok? <==> CursorUsable(conn) && answer.Ok? && answer.value.OpenRowset?
    ensures r.Ok? ==> r.value == answer.value.data
  {
    if !CursorUsable(conn) then Err(InvalidConnection)
    else match answer
      case Err(err) => Err(err)
      case Ok(ClosedRowset) => if closes then Err(NoRecords) else Err(CloseRefused)
      case Ok(OpenRowset(data)) => Ok(data)
  }

  /** The lazy reconnect of writeQueryToExcel: the cursor slot is connected
      again only when it is not usable. */
  function EnsureCursor(e: Engine, env: Env): (s: Step)
    ensures CursorUsable(e.cursor) ==> s == Step(e, Ok(()))
    ensures s.status.Ok? ==> CursorUsable(s.engine.cursor)
    ensures s.status.Err? ==> s.engine.cursor == NoCursor
    ensures s.engine.primary == e.primary && s.engine.orphans == e.orphans
  {
    if CursorUsable(e.cursor) then Step(e, Ok(())) else ConnectCursor(e, env)
  }

  /** With every open succeeding, connecting makes both slots usable and
      abandons no connection, whatever state the engine was in. */
  lemma ReliableConnect(e: Engine, server: string, catalog: string, user: Option<string>, password: Option<string>)
    ensures var s := Connect(e, server, catalog, user, password, Reliable);
      s.status.Ok? && Live(s.engine) && CursorUsable(s.engine.cursor) && s.engine.orphans == e.orphans
  {
  }

  /** Connect followed by a successful terminate leaves nothing usable and
      every execute then fails with NotConnected. */
  lemma TerminateAfterConnect<T>(e: Engine, server: string, catalog: string, user: Option<string>, password: Option<string>,
                                 env: Env, down: Env, answer: Result<T>)
    requires Connect(e, server, catalog, user, password, env).status.Ok?
    requires down.closePrimary && down.closeCursor
    ensures var t := Terminate(Connect(e, server, catalog, user, password, env).engine, down);
      !Live(t) && t.primary == Primary(Closed) && t.cursor == NoCursor
      && Execute(t.primary, answer) == Err(NotConnected)
  {
  }

  /** A second terminate is a no-op once the first one closed the primary
      (or had nothing to do), whatever its own close outcomes. */
  lemma TerminateIdempotent(e: Engine, first: Env, second: Env)
    requires first.closePrimary || !Live(e)
    ensures Terminate(Terminate(e, first), second) == Terminate(e, first)
  {
  }

  /** Terminate never touches the cursor slot when the primary is already
      closed: an open cursor connection outlives it. */
  lemma TerminateSkipsCursorWhenPrimaryClosed(e: Engine, env: Env)
    requires e.primary == Primary(Closed) && CursorUsable(e.cursor)
    ensures CursorUsable(Terminate(e, env).cursor)
  {
  }

  /** Ensuring the cursor connection twice leaves exactly the one the first
      call opened: the second call changes nothing. */
  lemma EnsureCursorTwice(e: Engine, env: Env, again: Env)
    requires EnsureCursor(e, env).status.Ok?
    ensures var s := EnsureCursor(e, env); EnsureCursor(s.engine, again) == Step(s.engine, Ok(()))
  {
  }

  /** Reconnecting the cursor slot abandons the previous connection only when
      closing it failed. */
  lemma ConnectCursorOrphansOnlyOnFailedClose(e: Engine, env: Env)
    requires CursorUsable(e.cursor)
    ensures ConnectCursor(e, env).engine.orphans == e.orphans <==> env.recloseCursor
  {
  }
}

=== FILE: excel_files.dfy ===
/** Creating workbook files and exporting a query into a sheet
    (ExcelUtility.cs: createExcelFile, both overloads, and writeQueryToExcel,
    both overloads). The document host is represented by the workbook it
    holds; whether SaveAs succeeds is an input. */
module ExcelFiles {
  import opened Outcomes
  import opened Tables
  import opened Connections
  import opened Workbooks
  import opened SaveFormats

  /** A workbook saved by the host under a path and a format. */
  datatype Document = Document(sheets: Workbook, path: string, format: SaveFormat)

  /** createExcelFile(ref workbook, path, filetype): the workbook is saved
      with the format of its file type; an unknown type throws before any
      save and nothing is closed. */
  function SaveWorkbookAs(wb: Workbook, path: string, fileType: Int16, saveSucceeds: bool): (r: Result<Document>)
    ensures r.Ok? <==> SaveFormatOf(fileType).Ok? && saveSucceeds
    ensures SaveFormatOf(fileType).Err? ==> r == Err(InvalidFileType)
    ensures r.Ok? ==> r.value.sheets == wb && r.value.path == path && FileTypeOf(r.value.format) == Some(fileType)
  {
    match SaveFormatOf(fileType)
    case Err(e) => Err(e)
    case Ok(f) =>
      SaveFormatRoundTrip(fileType);
      if saveSucceeds then Ok(Document(wb, path, f)) else Err(SaveFailed)
  }

  /** The host after a call: the open document, if any, and what was thrown. */
  datatype HostStep = HostStep(document: Option<Document>, status: Result<()>)

  /** createExcelFile(path, filetype): a new host adds a workbook (`created`,
      as the host creates it) and saves it; on any failure the host is
      closed before the exception is rethrown. */
  function CreateExcelFile(path: string, fileType: Int16, created: Workbook, saveSucceeds: bool): (r: HostStep)
    ensures r.status.Ok? <==> SaveFormatOf(fileType).Ok? && saveSucceeds
    ensures SaveFormatOf(fileType).Err? ==> r.status == Err(InvalidFileType)
    ensures r.document.Some? <==> r.status.Ok?
    ensures r.document.Some? ==>
      r.document.value.sheets == created && r.document.value.path == path
      && FileTypeOf(r.document.value.format) == Some(fileType)
  {
    match SaveWorkbookAs(created, path, fileType, saveSucceeds)
    case Err(e) => HostStep(None, Err(e))
    case Ok(d) => HostStep(Some(d), Ok(()))
  }

  /** The state a sheet export leaves: the engine, the workbook, whether
      the host was closed, whether the workbook was saved, what was thrown. */
  datatype ExportStep = ExportStep(engine: Engine, workbook: Option<Workbook>, hostClosed: bool, saved: bool,
                                   status: Result<()>)

  /** writeQueryToExcel(query, repName, workbook, save): requires a usable
      primary connection, reconnects the cursor slot if needed, runs the
      query there (`answer` is the database's reply) and fills the named
      sheet of `wb`. A statement returning no rowset closes the host; a null
      workbook is silently skipped. */
  function WriteQueryToWorkbook(e: Engine, env: Env, wb: Option<Workbook>, name: string, answer: Result<Rowset>,
                                save: bool, at: nat): (r: ExportStep)
    requires wb.Some? ==> UniqueNames(wb.value)
    ensures !Live(e) ==> r == ExportStep(e, wb, false, false, Err(NoDatabaseConnection))
    ensures r.status.Ok? ==> Live(r.engine) && CursorUsable(r.engine.cursor)
    ensures r.workbook != wb ==> r.status.Ok?
    ensures r.hostClosed <==> Live(e) && EnsureCursor(e, env).status.Ok? && answer == Ok(ClosedRowset)
    ensures r.saved ==> save && r.status.Ok?
    ensures r.workbook.Some? ==> UniqueNames(r.workbook.value)
    ensures r.status.Ok? ==> answer.Ok? && answer.value.OpenRowset? && r.workbook.Some? == wb.Some?
    ensures r.status.Ok? && wb.Some? ==>
      && r.saved == save
      && NoDefaultSheets(r.workbook.value)
      && Bystanders(r.workbook.value, name) == Bystanders(wb.value, name)
    ensures r.status.Ok? && answer.Ok? && answer.value.OpenRowset? && wb.Some? && r.workbook.Some?
            && !IsDefaultName(name) ==>
      var rs := answer.value.data;
      var k := FindSheet(r.workbook.value, name);
      k.Some? && r.workbook.value[k.value] == Sheet(name, HeaderAndData(rs.names, rs.rows))
  {
    if !Live(e) then ExportStep(e, wb, false, false, Err(NoDatabaseConnection))
    else
      var s := EnsureCursor(e, env);
      if s.status.Err? then ExportStep(s.engine, wb, false, false, s.status)
      else match ExecuteCursorQuery(s.engine.cursor, answer)
        case Err(err) => ExportStep(s.engine, wb, false, false, Err(err))
        case Ok(ClosedRowset) => ExportStep(s.engine, wb, true, false, Err(RowsetClosed))
        case Ok(OpenRowset(data)) =>
          if wb.None? then ExportStep(s.engine, wb, false, false, Ok(()))
          else
            var f := FillWorksheet(wb.value, name, data.names, data.rows, save, at);
            ExportStep(s.engine, Some(f.workbook), false, f.saved, Ok(()))
  }

  /** writeQueryToExcel(query, repName, workbook) without the save flag:
      the workbook is saved whenever the export succeeds. */
  function WriteQueryToWorkbookDefault(e: Engine, env: Env, wb: Option<Workbook>, name: string,
                                       answer: Result<Rowset>, at: nat): (r: ExportStep)
    requires wb.Some? ==> UniqueNames(wb.value)
    ensures r == WriteQueryToWorkbook(e, env, wb, name, answer, true, at)
    ensures r.status.Ok? && wb.Some? ==> r.saved
  {
    WriteQueryToWorkbook(e, env, wb, name, answer, true, at)
  }

  /** writeQueryToExcel(query, repName): the same export into the host's
      active workbook (null when no host is open), always saved. */
  function WriteQueryToActiveWorkbook(e: Engine, env: Env, active: Option<Workbook>, name: string,
                                      answer: Result<Rowset>, at: nat): (r: ExportStep)
    requires active.Some? ==> UniqueNames(active.value)
    ensures !Live(e) ==> r.status == Err(NoDatabaseConnection)
    ensures r.status.Ok? ==> Live(r.engine) && CursorUsable(r.engine.cursor) && answer.Ok? && answer.value.OpenRowset?
    ensures r.status.Ok? && active.Some? ==> r.saved && r.workbook.Some?
    ensures r.status.Ok? && active.Some? ==>
      NoDefaultSheets(r.workbook.value) && Bystanders(r.workbook.value, name) == Bystanders(active.value, name)
    ensures r.status.Ok? && active.Some? && !IsDefaultName(name) ==>
      var rs := answer.value.data;
      var k := FindSheet(r.workbook.value, name);
      k.Some? && r.workbook.value[k.value] == Sheet(name, HeaderAndData(rs.names, rs.rows))
  {
    WriteQueryToWorkbook(e, env, active, name, answer, true, at)
  }

  /** Connect with integrated security, export a query into a new
      workbook under "Report" and save: the workbook then holds exactly
      one sheet, "Report", with the header and rows, and no placeholders. */
  lemma ReportIntoNewWorkbook(server: string, catalog: string, rs: ResultSet, at: nat)
    ensures var c := Connect(Fresh, server, catalog, None, None, Reliable);
      var x := WriteQueryToWorkbook(c.engine, Reliable, Some(NewWorkbook), "Report", Ok(OpenRowset(rs)), true, at);
      && c.engine.profile == Some(Profile(server, catalog, Integrated))
      && x.status.Ok? && x.saved
      && x.workbook == Some([Sheet("Report", HeaderAndData(rs.names, rs.rows))])
  {
    ReliableConnect(Fresh, server, catalog, None, None);
    assert !IsDefaultName("Report");
    assert UniqueNames(NewWorkbook);
    FillNewWorkbook("Report", rs.names, rs.rows, true, at);
  }
}

=== FILE: flat_files.dfy ===
/** The two flat-file exporters, writeQueryToPipefile and
    writeQueryToTextFile (ExcelUtility.cs). The writer is opened on the
    path before the query runs and never appends, so the previous contents
    of the file play no part: the model describes the complete file image
    left behind, line by line, and the failure that ended the call if any. */
module FlatFiles {
  import opened Outcomes
  import opened Text
  import opened Tables
  import opened DelimitedLines
  import opened Connections

  /** The pipe exporter's fixed separator. */
  const PipeSeparator := '|'

  /** The text exporter's default separator. */
  const DefaultTextSeparator := '\t'

  /** The lines in the file when the call returns, and what it threw. */
  datatype FileImage = FileImage(lines: seq<string>, failure: Option<Error>)

  /** The data rows, one emitted line each, each flushed before the next is
      built; a row that cannot be emitted ends the file there. */
  function WriteRows(rows: seq<seq<string>>, sep: char): (f: FileImage)
    ensures f.failure.None? <==> forall i :: 0 <= i < |rows| ==> |rows[i]| >= 1
    ensures f.failure.Some? ==> f.failure.value == ArgumentOutOfRange && |f.lines| < |rows| && |rows[|f.lines|]| == 0
    ensures f.failure.None? ==> |f.lines| == |rows|
    ensures forall i :: 0 <= i < |f.lines| ==> |rows[i]| >= 1 && f.lines[i] == Join(rows[i], sep)
    decreases |rows|
  {
    if |rows| == 0 then FileImage([], None)
    else match EmitLine(rows[0], sep)
      case Err(e) => FileImage([], Some(e))
      case Ok(line) =>
        var rest := WriteRows(rows[1..], sep);
        WriteRowsStep(rows, sep, line, rest);
        FileImage([line] + rest.lines, rest.failure)
  }

  /** What `WriteRows` promises, gathered under one name. */
  ghost predicate RowsWritten(rows: seq<seq<string>>, sep: char, f: FileImage) {
    && (f.failure.None? <==> forall i :: 0 <= i < |rows| ==> |rows[i]| >= 1)
    && (f.failure.Some? ==> f.failure.value == ArgumentOutOfRange && |f.lines| < |rows| && |rows[|f.lines|]| == 0)
    && (f.failure.None? ==> |f.lines| == |rows|)
    && forall i :: 0 <= i < |f.lines| ==> |rows[i]| >= 1 && f.lines[i] == Join(rows[i], sep)
  }

  /** Putting the first row's line in front of the rest's file keeps the promise. */
  lemma WriteRowsStep(rows: seq<seq<string>>, sep: char, line: string, rest: FileImage)
    requires |rows| >= 1 && |rows[0]| >= 1 && line == Join(rows[0], sep)
    requires RowsWritten(rows[1..], sep, rest)
    ensures RowsWritten(rows, sep, FileImage([line] + rest.lines, rest.failure))
  {
    assert forall i :: 1 <= i < |rows| ==> rows[i] == rows[1..][i - 1];
  }

  /** The body both exporters share: truncate the file, run the query
      through the connection guard (`answer` is what the database returns or
      raises), write the header of column names, then one line per row in
      reader order. */
  function WriteDelimited(p: PrimarySlot, answer: Result<ResultSet>, sep: char): (f: FileImage)
    ensures !Usable(p) ==> f == FileImage([], Some(NotConnected))
    ensures Usable(p) && answer.Err? ==> f == FileImage([], Some(answer.error))
    ensures Usable(p) && answer.Ok? && |answer.value.names| == 0 ==> f == FileImage([], Some(ArgumentOutOfRange))
    ensures Usable(p) && answer.Ok? && |answer.value.names| >= 1 && WellShaped(answer.value) ==>
      var rs := answer.value;
      && f.failure.None?
      && |f.lines| == |rs.rows| + 1
      && f.lines[0] == Join(rs.names, sep)
      && forall i :: 0 <= i < |rs.rows| ==> f.lines[i + 1] == Join(rs.rows[i], sep)
  {
    match Execute(p, answer)
    case Err(e) => FileImage([], Some(e))
    case Ok(data) =>
      match EmitLine(data.names, sep)
      case Err(e) => FileImage([], Some(e))
      case Ok(header) =>
        var body := WriteRows(data.rows, sep);
        FileImage([header] + body.lines, body.failure)
  }

  /** writeQueryToPipefile: the separator is always '|'. */
  function WriteQueryToPipefile(p: PrimarySlot, answer: Result<ResultSet>): (f: FileImage)
    ensures Usable(p) && answer.Ok? && |answer.value.names| >= 1 && WellShaped(answer.value) ==>
      f.failure.None? && |f.lines| == |answer.value.rows| + 1 && f.lines[0] == Join(answer.value.names, '|')
    ensures f == WriteDelimited(p, answer, PipeSeparator)
  {
    WriteDelimited(p, answer, PipeSeparator)
  }

  /** writeQueryToTextFile with an explicit separator. */
  function WriteQueryToTextFile(p: PrimarySlot, answer: Result<ResultSet>, sep: char): (f: FileImage)
    ensures Usable(p) && answer.Ok? && |answer.value.names| >= 1 && WellShaped(answer.value) ==>
      f.failure.None? && |f.lines| == |answer.value.rows| + 1 && f.lines[0] == Join(answer.value.names, sep)
    ensures f == WriteDelimited(p, answer, sep)
  {
    WriteDelimited(p, answer, sep)
  }

  /** writeQueryToTextFile called without a separator: the fields are
      tab-separated. */
  function WriteQueryToTextFileDefault(p: PrimarySlot, answer: Result<ResultSet>): (f: FileImage)
    ensures f == WriteQueryToTextFile(p, answer, DefaultTextSeparator)
    ensures Usable(p) && answer.Ok? && |answer.value.names| >= 1 && WellShaped(answer.value) ==>
      f.lines[0] == Join(answer.value.names, '\t')
      && forall i :: 0 <= i < |answer.value.rows| ==> f.lines[i + 1] == Join(answer.value.rows[i], '\t')
  {
    WriteQueryToTextFile(p, answer, DefaultTextSeparator)
  }

  /** Reading the file back record by record: splitting every record on the
      separator gives the header and the rows back exactly, provided no name
      or value contains the separator (nothing is escaped). */
  lemma {:induction false} ExportSplitsBack(p: PrimarySlot, rs: ResultSet, sep: char)
    requires Usable(p) && |rs.names| >= 1 && WellShaped(rs)
    requires SeparatorFree(rs.names, sep)
    requires forall i :: 0 <= i < |rs.rows| ==> SeparatorFree(rs.rows[i], sep)
    ensures var f := WriteDelimited(p, Ok(rs), sep);
      |f.lines| == |rs.rows| + 1
      && Split(f.lines[0], sep) == rs.names
      && forall i :: 0 <= i < |rs.rows| ==> Split(f.lines[i + 1], sep) == rs.rows[i]
  {
    var f := WriteDelimited(p, Ok(rs), sep);
    SplitJoinRoundTrip(rs.names, sep);
    forall i | 0 <= i < |rs.rows| ensures Split(f.lines[i + 1], sep) == rs.rows[i] {
      SplitJoinRoundTrip(rs.rows[i], sep);
    }
  }

  /** The round trip fails as soon as one value holds the separator: its
      line splits into more fields than the row has. */
  lemma {:induction false} SeparatorInValueBreaksRoundTrip(p: PrimarySlot, rs: ResultSet, sep: char, i: int)
    requires Usable(p) && |rs.names| >= 1 && WellShaped(rs)
    requires 0 <= i < |rs.rows| && !SeparatorFree(rs.rows[i], sep)
    ensures var f := WriteDelimited(p, Ok(rs), sep);
      |Split(f.lines[i + 1], sep)| > |rs.rows[i]|
  {
    var f := WriteDelimited(p, Ok(rs), sep);
    var row := rs.rows[i];
    assert f.lines[i + 1] == Join(row, sep);
    JoinSeparatorCount(row, sep);
    SplitLength(Join(row, sep), sep);
    SeparatorsWithinPositive(row, sep);
  }

  /** `WriteLine` ends every line with the platform's line terminator. */
  const NewLine := "\r\n"

  /** The text of the file: every written line followed by the terminator.
      A line feed inside a line is written as is. */
  function FileText(lines: seq<string>): (t: string)
    ensures multiset(t)['\n'] == |lines| + SeparatorsWithin(lines, '\n')
    decreases |lines|
  {
    if |lines| == 0 then ""
    else
      var rest := FileText(lines[1..]);
      var t := lines[0] + NewLine + rest;
      assert multiset(t) == multiset(lines[0]) + multiset(NewLine) + multiset(rest);
      t
  }

  /** A terminator's carriage return is not part of the record. */
  function StripReturn(s: string): string {
    if |s| > 0 && s[|s| - 1] == '\r' then s[..|s| - 1] else s
  }

  function StripReturns(parts: seq<string>): (r: seq<string>)
    ensures |r| == |parts|
    ensures forall i :: 0 <= i < |parts| ==> r[i] == StripReturn(parts[i])
    decreases |parts|
  {
    if |parts| == 0 then [] else [StripReturn(parts[0])] + StripReturns(parts[1..])
  }

  /** A reader of the file: every line feed ends a record. There are as
      many records as line feeds. */
  function ReadRecords(text: string): (records: seq<string>)
    ensures |records| == multiset(text)['\n']
  {
    var parts := Split(text, '\n');
    SplitLength(text, '\n');
    StripReturns(parts[..|parts| - 1])
  }

  /** Splitting a file text at its line feeds: one part per line, each
      carrying its carriage return, and an empty part after the last. */
  lemma {:induction false} SplitFileText(lines: seq<string>)
    requires SeparatorFree(lines, '\n')
    ensures var parts := Split(FileText(lines), '\n');
      |parts| == |lines| + 1 && parts[|lines|] == ""
      && forall i :: 0 <= i < |lines| ==> parts[i] == lines[i] + "\r"
    decreases |lines|
  {
    if |lines| > 0 {
      var rest := lines[1..];
      assert SeparatorFree(rest, '\n') by {
        assert forall i :: 0 <= i < |rest| ==> rest[i] == lines[i + 1];
      }
      SplitFileText(rest);
      assert '\n' !in lines[0];
      SplitFileTextCons(lines);
      PartsOfLinesStep(lines, Split(FileText(rest), '\n'));
    }
  }

  /** The parts a file text of `lines` splits into. */
  ghost predicate PartsOfLines(lines: seq<string>, parts: seq<string>) {
    |parts| == |lines| + 1 && parts[|lines|] == ""
    && forall i :: 0 <= i < |lines| ==> parts[i] == lines[i] + "\r"
  }

  /** The first line's part in front of the rest's parts. */
  lemma PartsOfLinesStep(lines: seq<string>, restParts: seq<string>)
    requires |lines| > 0 && PartsOfLines(lines[1..], restParts)
    ensures PartsOfLines(lines, [lines[0] + "\r"] + restParts)
  {
    var parts := [lines[0] + "\r"] + restParts;
    assert forall i :: 0 < i < |parts| ==> parts[i] == restParts[i - 1];
  }

  /** The first line of a file text splits off with its carriage return. */
  lemma SplitFileTextCons(lines: seq<string>)
    requires |lines| > 0 && '\n' !in lines[0]
    ensures Split(FileText(lines), '\n') == [lines[0] + "\r"] + Split(FileText(lines[1..]), '\n')
  {
    var head := lines[0] + "\r";
    assert '\n' !in head;
    var restText := FileText(lines[1..]);
    assert FileText(lines) == lines[0] + NewLine + restText;
    assert head + ['\n'] == lines[0] + NewLine;
    assert FileText(lines) == head + ['\n'] + restText;
    SplitCons(head, FileText(lines[1..]), '\n');
  }

  /** Lines without a line feed are read back exactly as written. */
  lemma ReadRecordsOfFileText(lines: seq<string>)
    requires SeparatorFree(lines, '\n')
    ensures ReadRecords(FileText(lines)) == lines
  {
    SplitFileText(lines);
    var parts := Split(FileText(lines), '\n');
    var r := ReadRecords(FileText(lines));
    forall i | 0 <= i < |lines| ensures r[i] == lines[i] {
      var q := lines[i] + "\r";
      assert parts[..|parts| - 1][i] == q;
      assert q[..|q| - 1] == lines[i];
    }
  }

  /** No column name or value holds a line feed. */
  predicate LineBreakFree(rs: ResultSet) {
    SeparatorFree(rs.names, '\n') && forall i :: 0 <= i < |rs.rows| ==> SeparatorFree(rs.rows[i], '\n')
  }

  /** A joined line holds a line feed exactly when one of its fields does. */
  lemma JoinedLineBreakFree(fields: seq<string>, sep: char)
    requires sep != '\n'
    ensures '\n' !in Join(fields, sep) <==> SeparatorFree(fields, '\n')
  {
    JoinCharCount(fields, sep, '\n');
    SeparatorsWithinZero(fields, '\n');
    assert '\n' in Join(fields, sep) <==> multiset(Join(fields, sep))['\n'] > 0;
  }

  /** The lines of an export hold no line feed exactly when no name or value
      does. */
  lemma ExportLinesBreakFree(p: PrimarySlot, rs: ResultSet, sep: char)
    requires Usable(p) && |rs.names| >= 1 && WellShaped(rs) && sep != '\n'
    ensures SeparatorFree(WriteDelimited(p, Ok(rs), sep).lines, '\n') <==> LineBreakFree(rs)
  {
    var f := WriteDelimited(p, Ok(rs), sep);
    JoinedLineBreakFree(rs.names, sep);
    forall i | 0 <= i < |rs.rows| ensures '\n' !in f.lines[i + 1] <==> SeparatorFree(rs.rows[i], '\n') {
      JoinedLineBreakFree(rs.rows[i], sep);
    }
    if LineBreakFree(rs) {
      forall k | 0 <= k < |f.lines| ensures '\n' !in f.lines[k] {
        if k > 0 {
          assert '\n' !in f.lines[(k - 1) + 1];
        }
      }
    }
  }

  /** The file holds one record per written line exactly when no name or
      value holds a line feed; otherwise a value's line feed starts an extra
      record. */
  lemma ExportRecordCount(p: PrimarySlot, rs: ResultSet, sep: char)
    requires Usable(p) && |rs.names| >= 1 && WellShaped(rs) && sep != '\n'
    ensures |ReadRecords(FileText(WriteDelimited(p, Ok(rs), sep).lines))| == |rs.rows| + 1 <==> LineBreakFree(rs)
  {
    var f := WriteDelimited(p, Ok(rs), sep);
    ExportLinesBreakFree(p, rs, sep);
    SeparatorsWithinZero(f.lines, '\n');
  }

  /** Reading the file back: with no separator and no line feed in any name
      or value, the records of the file split back into the header and every
      row exactly. */
  lemma ExportReadsBack(p: PrimarySlot, rs: ResultSet, sep: char)
    requires Usable(p) && |rs.names| >= 1 && WellShaped(rs) && sep != '\n'
    requires SeparatorFree(rs.names, sep)
    requires forall i :: 0 <= i < |rs.rows| ==> SeparatorFree(rs.rows[i], sep)
    requires LineBreakFree(rs)
    ensures var records := ReadRecords(FileText(WriteDelimited(p, Ok(rs), sep).lines));
      |records| == |rs.rows| + 1
      && Split(records[0], sep) == rs.names
      && forall i :: 0 <= i < |rs.rows| ==> Split(records[i + 1], sep) == rs.rows[i]
  {
    var f := WriteDelimited(p, Ok(rs), sep);
    ExportLinesBreakFree(p, rs, sep);
    ReadRecordsOfFileText(f.lines);
    ExportSplitsBack(p, rs, sep);
  }
}

=== FILE: import_sources.dfy ===
/** How the bulk loaders describe the external source they read from
    (ExcelUtility.cs, the bulkLoadFileIntoTable overloads): the OLE DB
    connection string, the query selecting the sheet or text file, and the
    settings handed to the bulk copy. Running the copy itself is outside the
    model. */
module ImportSources {
  import opened Outcomes
  import opened Text

  const SelectPrefix := "select * from ["
  const SheetSuffix := "$]"

  /** The sheet (or text file) a `select * from [X$]` query reads, if the
      query has that shape. */
  function SheetOf(q: string): Option<string> {
    if |q| >= |SelectPrefix| + |SheetSuffix|
       && q[..|SelectPrefix|] == SelectPrefix
       && q[|q| - |SheetSuffix|..] == SheetSuffix
    then Some(q[|SelectPrefix|..|q| - |SheetSuffix|])
    else None
  }

  /** The source query: the caller's own query verbatim, or a select of
      every column of the named sheet. */
  function SheetQuery(source: string, isQuery: bool): (q: string)
    ensures isQuery ==> q == source
    ensures !isQuery ==> SheetOf(q) == Some(source)
  {
    if isQuery then source
    else
      var q := SelectPrefix + source + SheetSuffix;
      assert q[..|SelectPrefix|] == SelectPrefix;
      assert q[|q| - |SheetSuffix|..] == SheetSuffix;
      assert q[|SelectPrefix|..|q| - |SheetSuffix|] == source;
      q
  }

  /** The text driver's FMT setting. */
  datatype TextFormat = TabDelimited | Delimited(delimiter: char)

  /** What the text-file loader derives from the file path and flags. */
  datatype TextSource = TextSource(folder: string, fileName: string, header: bool, format: TextFormat)

  /** The text-file loader's path handling: the folder before the last
      backslash becomes the data source and the rest names the file; a path
      without a backslash makes `Substring(0, -1)` throw. The delimiter only
      matters when the file is not tab-delimited. */
  function TextImportSource(filePath: string, tabDelimited: bool, hdr: bool, delimiter: char): (r: Result<TextSource>)
    ensures r.Ok? <==> '\\' in filePath
    ensures r.Err? ==> r.error == ArgumentOutOfRange
    ensures r.Ok? ==> r.value.folder + "\\" + r.value.fileName == filePath && '\\' !in r.value.fileName
    ensures r.Ok? ==> r.value.header == hdr
    ensures r.Ok? ==> (r.value.format == TabDelimited <==> tabDelimited)
    ensures r.Ok? && !tabDelimited ==> r.value.format.delimiter == delimiter
  {
    var cut := LastIndexOf(filePath, '\\');
    match Substring(filePath, 0, cut)
    case Err(e) => Err(e)
    case Ok(folder) =>
      match SubstringFrom(filePath, cut + 1)
      case Err(e) => Err(e)
      case Ok(fileName) =>
        assert filePath == filePath[..cut] + [filePath[cut]] + filePath[cut + 1..];
        Ok(TextSource(folder, fileName, hdr, if tabDelimited then TabDelimited else Delimited(delimiter)))
  }

  /** The HDR value of the connection string. */
  function HdrText(hdr: bool): string {
    if hdr then "Yes" else "No"
  }

  /** The FMT value of the connection string. */
  function FmtText(f: TextFormat): string {
    match f
    case TabDelimited => "TabDelimited"
    case Delimited(c) => "Delimited(" + [c] + ")"
  }

  /** Reading an HDR value back. */
  function ParseHdr(s: string): Option<bool> {
    if s == "Yes" then Some(true) else if s == "No" then Some(false) else None
  }

  /** Reading an FMT value back. */
  function ParseFmt(s: string): Option<TextFormat> {
    if s == "TabDelimited" then Some(TabDelimited)
    else if |s| == 12 && s[..10] == "Delimited(" && s[11] == ')' then Some(Delimited(s[10]))
    else None
  }

  /** The HDR and FMT values the loader writes are read back as the flags
      and delimiter it was given. */
  lemma ExtendedPropertiesRoundTrip(hdr: bool, f: TextFormat)
    ensures ParseHdr(HdrText(hdr)) == Some(hdr)
    ensures ParseFmt(FmtText(f)) == Some(f)
  {
    if f.Delimited? {
      var s := FmtText(f);
      assert s[..10] == "Delimited(" && s[10] == f.delimiter && s[11] == ')';
      assert s != "TabDelimited" by {
        assert |"TabDelimited"| == 12 && "TabDelimited"[0] == 'T' != s[0];
      }
    }
  }

  /** The text driver's connection string for a derived source. */
  function TextConnectionString(t: TextSource): string {
    "Provider=Microsoft.Jet.OLEDB.4.0;Data Source=" + t.folder
    + ";Extended Properties='text;HDR=" + HdrText(t.header) + ";FMT=" + FmtText(t.format) + "'"
  }

  /** The workbook driver's connection string for a file, header row on. */
  function ExcelConnectionString(file: string): string {
    "Provider=Microsoft.ACE.OLEDB.12.0;Data Source=" + file + ";Extended Properties=\"Excel 12.0;HDR=YES\";"
  }

  datatype ColumnMapping = ColumnMapping(source: string, destination: string)

  /** Where the rows come from: a connection the loader opens and closes
      itself, or one the caller passed in and keeps. */
  datatype SourceConnection = OwnConnection(connectionString: string) | CallerConnection

  /** Everything one load call sets up before the copy starts. `mappings`
      None keeps the bulk copy's default mapping; `validated` routes the rows
      through the schema-validating reader. */
  datatype LoadPlan = LoadPlan(source: SourceConnection, query: string, table: string,
                               mappings: Option<seq<ColumnMapping>>, validated: bool, timeout: int)

  /** Every bulk copy runs with this timeout, in seconds. */
  const BulkCopyTimeout := 2000

  /** bulkLoadFileIntoTable(file, table, sheetName[, mapping]): a workbook
      sheet through the loader's own connection. Rows are validated only
      when no explicit mapping is given; a given mapping replaces the
      default one entirely. */
  function SheetLoad(file: string, table: string, sheet: string, mapping: Option<seq<ColumnMapping>>): (p: LoadPlan)
    ensures p.source == OwnConnection(ExcelConnectionString(file))
    ensures SheetOf(p.query) == Some(sheet)
    ensures p.validated <==> mapping.None?
    ensures p.mappings == mapping && p.table == table && p.timeout == BulkCopyTimeout
  {
    LoadPlan(OwnConnection(ExcelConnectionString(file)), SheetQuery(sheet, false), table, mapping,
             mapping.None?, BulkCopyTimeout)
  }

  /** bulkLoadFileIntoTable(oledbConnection, table, source, query): the
      caller's connection, the caller's query or a sheet select, validated. */
  function ConnectionLoad(table: string, source: string, isQuery: bool): (p: LoadPlan)
    ensures p.source == CallerConnection && p.validated && p.mappings.None?
    ensures isQuery ==> p.query == source
    ensures !isQuery ==> SheetOf(p.query) == Some(source)
    ensures p.table == table && p.timeout == BulkCopyTimeout
  {
    LoadPlan(CallerConnection, SheetQuery(source, isQuery), table, None, true, BulkCopyTimeout)
  }

  /** bulkLoadFileIntoTable(oledbConnection, table, source, mapping): always
      a sheet select, never a raw query; the mapping replaces the default
      and the rows go unvalidated. */
  function MappedConnectionLoad(table: string, source: string, mapping: seq<ColumnMapping>): (p: LoadPlan)
    ensures p.source == CallerConnection && !p.validated && p.mappings == Some(mapping)
    ensures SheetOf(p.query) == Some(source)
    ensures p.table == table && p.timeout == BulkCopyTimeout
  {
    LoadPlan(CallerConnection, SheetQuery(source, false), table, Some(mapping), false, BulkCopyTimeout)
  }

  /** bulkLoadFileIntoTable(filePath, table, tabDelimited, hdr, delimiter):
      a text file through the loader's own connection, selected by its file
      name, unvalidated and with the default mapping. */
  function TextFileLoad(filePath: string, table: string, tabDelimited: bool, hdr: bool, delimiter: char): (r: Result<LoadPlan>)
    ensures r.Ok? <==> '\\' in filePath
    ensures r.Err? ==> r.error == ArgumentOutOfRange
    ensures r.Ok? ==>
      var t := TextImportSource(filePath, tabDelimited, hdr, delimiter).value;
      && r.value.source == OwnConnection(TextConnectionString(t))
      && SheetOf(r.value.query) == Some(t.fileName)
      && filePath == t.folder + "\\" + t.fileName
      && !r.value.validated && r.value.mappings.None?
      && r.value.table == table && r.value.timeout == BulkCopyTimeout
  {
    match TextImportSource(filePath, tabDelimited, hdr, delimiter)
    case Err(e) => Err(e)
    case Ok(t) => Ok(LoadPlan(OwnConnection(TextConnectionString(t)), SheetQuery(t.fileName, false), table,
                              None, false, BulkCopyTimeout))
  }

  /** bulkLoadFileIntoTable(filePath, table, tabDelimited) with the
      defaults: the file has a header row and, unless tab-delimited, is
      pipe-delimited. */
  function TextFileLoadDefault(filePath: string, table: string, tabDelimited: bool): (r: Result<LoadPlan>)
    ensures r == TextFileLoad(filePath, table, tabDelimited, true, '|')
    ensures r.Ok? ==>
      var t := TextImportSource(filePath, tabDelimited, true, '|').value;
      t.header && (t.format == if tabDelimited then TabDelimited else Delimited('|'))
  {
    TextFileLoad(filePath, table, tabDelimited, true, '|')
  }

  /** With a tab-delimited file the delimiter argument has no effect. */
  lemma TabDelimitedIgnoresDelimiter(filePath: string, table: string, hdr: bool, d1: char, d2: char)
    ensures TextFileLoad(filePath, table, true, hdr, d1) == TextFileLoad(filePath, table, true, hdr, d2)
  {
  }
}

=== FILE: lines.dfy ===
/** How the flat-file exporters build one output line: append every field
    followed by the separator, then keep everything before the last
    separator (ExcelUtility.cs, writeQueryToPipefile and
    writeQueryToTextFile). */
module DelimitedLines {
  import opened Outcomes
  import opened Text

  /** The string the field loop accumulates: `line += field + sep` for each
      field in order, starting from "". */
  function Accumulate(fields: seq<string>, sep: char): string
    decreases |fields|
  {
    if |fields| == 0 then ""
    else Accumulate(fields[..|fields| - 1], sep) + fields[|fields| - 1] + [sep]
  }

  /** Every field contributes exactly one separator to the accumulated line,
      besides those inside its value. */
  lemma {:induction false} AccumulateSeparatorCount(fields: seq<string>, sep: char)
    ensures multiset(Accumulate(fields, sep))[sep] == |fields| + SeparatorsWithin(fields, sep)
    decreases |fields|
  {
    if |fields| > 0 {
      var init := fields[..|fields| - 1];
      var last := fields[|fields| - 1];
      AccumulateSeparatorCount(init, sep);
      assert fields == init + [last];
      SeparatorsWithinSnoc(init, last, sep);
      var prefix := Accumulate(init, sep);
      var line := prefix + last + [sep];
      assert Accumulate(fields, sep) == line;
      assert multiset(line) == multiset(prefix) + multiset(last) + multiset([sep]);
    }
  }

  /** `line.Substring(0, line.LastIndexOf(sep))` applied to the accumulated
      line. With no fields the index is -1 and the call throws; otherwise the
      result is the plain join. */
  function EmitLine(fields: seq<string>, sep: char): (r: Result<string>)
    ensures |fields| == 0 ==> r == Err(ArgumentOutOfRange)
    ensures |fields| >= 1 ==> r == Ok(Join(fields, sep))
  {
    var line := Accumulate(fields, sep);
    AccumulateIsJoinWithTrailingSeparator(fields, sep);
    Substring(line, 0, LastIndexOf(line, sep))
  }

  /** The accumulated line is the join followed by one trailing separator. */
  lemma {:induction false} AccumulateIsJoinWithTrailingSeparator(fields: seq<string>, sep: char)
    ensures |fields| >= 1 ==> Accumulate(fields, sep) == Join(fields, sep) + [sep]
    decreases |fields|
  {
    if |fields| == 0 {
      return;
    }
    var init := fields[..|fields| - 1];
    var last := fields[|fields| - 1];
    assert fields == init + [last];
    if |fields| == 1 {
      assert Accumulate(init, sep) == "";
    } else {
      AccumulateIsJoinWithTrailingSeparator(init, sep);
      JoinSnoc(init, last, sep);
    }
  }

  /** The separator count of an emitted line is n - 1 plus the separators
      the values already held: values are written without escaping. */
  lemma EmittedSeparatorCount(fields: seq<string>, sep: char)
    requires |fields| >= 1
    ensures EmitLine(fields, sep).Ok?
    ensures multiset(EmitLine(fields, sep).value)[sep] == |fields| - 1 + SeparatorsWithin(fields, sep)
  {
    JoinSeparatorCount(fields, sep);
  }

  /** Splitting an emitted line on the separator gives back the fields
      exactly when no field contains the separator. */
  lemma EmittedLineSplits(fields: seq<string>, sep: char)
    requires |fields| >= 1
    ensures EmitLine(fields, sep).Ok?
    ensures Split(EmitLine(fields, sep).value, sep) == fields <==> SeparatorFree(fields, sep)
  {
    SplitJoinRoundTrip(fields, sep);
  }
}

=== FILE: outcomes.dfy ===
/** Failure-carrying values shared by every module of the model.

    The library reports every failure by throwing an exception; the model
    returns it instead, one `Error` constructor per distinct failure the
    library raises or lets escape. */
module Outcomes {

  /** The failures the library can surface. */
  datatype Error =
    /** "You are not connected to a database" raised by the execute guards. */
    | NotConnected
    /** "There is no connection to a database" raised by the Excel export. */
    | NoDatabaseConnection
    /** "Invalid connection" raised when a caller-supplied cursor connection is unusable. */
    | InvalidConnection
    /** "Query returns no records" raised when a recordset comes back closed. */
    | NoRecords
    /** "Object is closed" raised by the Excel export for a statement returning no rowset. */
    | RowsetClosed
    /** "Error connecting to database" wrapping a failed open. */
    | ConnectFailed
    /** "File type not valid" raised by the save-format switch. */
    | InvalidFileType
    /** `ArgumentOutOfRangeException` from `String.Substring`. */
    | ArgumentOutOfRange
    /** A failure inside the document host's SaveAs. */
    | SaveFailed
    /** An error the host raised while closing an object that was not open
        (ADO refuses to close a recordset that is already closed). */
    | CloseRefused

  datatype Option<+T> = None | Some(value: T)

  datatype Result<+T> = Ok(value: T) | Err(error: Error)
}

=== FILE: save_formats.dfy ===
/** The file-type constants of the library and the SaveAs format each one
    selects (ExcelUtility.cs, the switch in both createExcelFile
    overloads). */
module SaveFormats {
  import opened Outcomes

  /** C# `short`. */
  newtype Int16 = x: int | -0x8000 <= x < 0x8000

  const TXT: Int16 := 0
  const CSV: Int16 := 1
  const XLS: Int16 := 2
  const XLSX: Int16 := 3
  /** Declared by the library, but no save format accepts it. */
  const PIPE: Int16 := 4

  /** The host's format codes: Excel 97-2003 binary, text in the current
      platform's encoding, and comma-separated values. */
  const XlExcel8 := 56
  const XlCurrentPlatformText := -4158
  const XlCsv := 6

  /** SaveAs without a format argument (the host's native package) or with
      an explicit format code. */
  datatype SaveFormat = HostDefault | FormatCode(code: int)

  /** The switch: four file types are saveable, everything else throws. */
  function SaveFormatOf(fileType: Int16): (r: Result<SaveFormat>)
    ensures r.Ok? <==> fileType in {TXT, CSV, XLS, XLSX}
    ensures r.Err? ==> r.error == InvalidFileType
    ensures r == Ok(HostDefault) <==> fileType == XLSX
  {
    if fileType == XLSX then Ok(HostDefault)
    else if fileType == XLS then Ok(FormatCode(XlExcel8))
    else if fileType == TXT then Ok(FormatCode(XlCurrentPlatformText))
    else if fileType == CSV then Ok(FormatCode(XlCsv))
    else Err(InvalidFileType)
  }

  /** Which file type a save format stands for, if any. */
  function FileTypeOf(f: SaveFormat): Option<Int16> {
    match f
    case HostDefault => Some(XLSX)
    case FormatCode(c) =>
      if c == XlExcel8 then Some(XLS)
      else if c == XlCurrentPlatformText then Some(TXT)
      else if c == XlCsv then Some(CSV)
      else None
  }

  /** Every accepted file type is recovered from its save format. */
  lemma SaveFormatRoundTrip(fileType: Int16)
    ensures SaveFormatOf(fileType).Ok? ==> FileTypeOf(SaveFormatOf(fileType).value) == Some(fileType)
  {
  }

  /** Every save format that stands for a file type is the one the switch
      picks for it. */
  lemma FileTypeRoundTrip(f: SaveFormat)
    ensures FileTypeOf(f).Some? ==> SaveFormatOf(FileTypeOf(f).value) == Ok(f)
  {
  }

  /** The pipe constant is not a saveable type. */
  lemma PipeIsNotSaveable()
    ensures SaveFormatOf(PIPE) == Err(InvalidFileType)
  {
  }
}

=== FILE: tables.dfy ===
/** What a query hands back to the exporters: the column names in order and
    the rows, each already rendered as one string per column. The database
    itself is outside the model; a `ResultSet` is whatever it answered. */
module Tables {

  datatype ResultSet = ResultSet(names: seq<string>, rows: seq<seq<string>>)

  /** Every row has one value per column, as a data reader guarantees. */
  predicate WellShaped(rs: ResultSet) {
    forall i :: 0 <= i < |rs.rows| ==> |rs.rows[i]| == |rs.names|
  }
}

=== FILE: text.dfy ===
/** The .NET string primitives the library relies on, with their failure
    behaviour and ordinal character comparison, together with a reference join and split that the
    rest of the model is proved against. */
module Text {
  import opened Outcomes

  /** `String.LastIndexOf(char)`, an ordinal search: the highest index
      holding `c`, or -1 when `c` does not occur. */
  function LastIndexOf(s: string, c: char): (i: int)
    ensures -1 <= i < |s|
    ensures i == -1 <==> c !in s
    ensures 0 <= i ==> s[i] == c && c !in s[i + 1..]
    decreases |s|
  {
    if |s| == 0 then -1
    else if s[|s| - 1] == c then |s| - 1
    else
      var i := LastIndexOf(s[..|s| - 1], c);
      assert s == s[..|s| - 1] + [s[|s| - 1]];
      assert 0 <= i ==> s[i + 1..] == s[..|s| - 1][i + 1..] + [s[|s| - 1]];
      i
  }

  /** `String.Substring(start, length)`: throws unless both are non-negative
      and the range lies inside the string. */
  function Substring(s: string, start: int, length: int): (r: Result<string>)
    ensures r.Ok? <==> 0 <= start && 0 <= length && start + length <= |s|
    ensures r.Ok? ==> |r.value| == length && r.value == s[start..start + length]
    ensures r.Err? ==> r.error == ArgumentOutOfRange
  {
    if 0 <= start && 0 <= length && start + length <= |s| then Ok(s[start..start + length])
    else Err(ArgumentOutOfRange)
  }

  /** `String.Substring(start)`: throws unless `0 <= start <= |s|`. */
  function SubstringFrom(s: string, start: int): (r: Result<string>)
    ensures r.Ok? <==> 0 <= start <= |s|
    ensures r.Ok? ==> r.value == s[start..]
    ensures r.Err? ==> r.error == ArgumentOutOfRange
  {
    if 0 <= start <= |s| then Ok(s[start..]) else Err(ArgumentOutOfRange)
  }

  /** Reference join: the fields separated by `sep`, with no leading or
      trailing separator. */
  function Join(fields: seq<string>, sep: char): string
    decreases |fields|
  {
    if |fields| == 0 then ""
    else if |fields| == 1 then fields[0]
    else fields[0] + [sep] + Join(fields[1..], sep)
  }

  /** Reference split: cut `s` at every occurrence of `sep`. There is
      always at least one part. */
  function Split(s: string, sep: char): (parts: seq<string>)
    ensures |parts| >= 1
    decreases |s|
  {
    if |s| == 0 then [""]
    else
      var rest := Split(s[1..], sep);
      if s[0] == sep then [""] + rest
      else [[s[0]] + rest[0]] + rest[1..]
  }

  /** No field contains the separator. */
  predicate SeparatorFree(fields: seq<string>, sep: char) {
    forall i :: 0 <= i < |fields| ==> sep !in fields[i]
  }

  /** How many separators the fields carry inside their own values. */
  function SeparatorsWithin(fields: seq<string>, sep: char): nat
    decreases |fields|
  {
    if |fields| == 0 then 0
    else multiset(fields[0])[sep] + SeparatorsWithin(fields[1..], sep)
  }

  /** Joining one more field at the end appends a separator and the field. */
  lemma {:induction false} JoinSnoc(fields: seq<string>, last: string, sep: char)
    requires |fields| >= 1
    ensures Join(fields + [last], sep) == Join(fields, sep) + [sep] + last
    decreases |fields|
  {
    var fs := fields + [last];
    assert fs[0] == fields[0];
    if |fields| == 1 {
      assert fs[1..] == [last];
    } else {
      assert fs[1..] == fields[1..] + [last];
      JoinSnoc(fields[1..], last, sep);
    }
  }

  /** Splitting a separator-free string yields that string alone. */
  lemma {:induction false} SplitSeparatorFree(f: string, sep: char)
    requires sep !in f
    ensures Split(f, sep) == [f]
    decreases |f|
  {
    if |f| > 0 {
      SplitSeparatorFree(f[1..], sep);
      assert [f[0]] + f[1..] == f;
    }
  }

  /** A separator-free prefix followed by a separator splits off as one part. */
  lemma {:induction false} SplitCons(f: string, t: string, sep: char)
    requires sep !in f
    ensures Split(f + [sep] + t, sep) == [f] + Split(t, sep)
    decreases |f|
  {
    var s := f + [sep] + t;
    if |f| == 0 {
      assert s[1..] == t;
    } else {
      assert s[1..] == f[1..] + [sep] + t;
      SplitCons(f[1..], t, sep);
      assert [f[0]] + f[1..] == f;
    }
  }

  /** Split undoes Join exactly when no field contains the separator. */
  lemma {:induction false} SplitJoinRoundTrip(fields: seq<string>, sep: char)
    requires |fields| >= 1
    ensures Split(Join(fields, sep), sep) == fields <==> SeparatorFree(fields, sep)
    decreases |fields|
  {
    if SeparatorFree(fields, sep) {
      if |fields| == 1 {
        SplitSeparatorFree(fields[0], sep);
      } else {
        assert SeparatorFree(fields[1..], sep) by {
          forall i | 0 <= i < |fields| - 1 ensures sep !in fields[1..][i] {
            assert fields[1..][i] == fields[i + 1];
          }
        }
        SplitCons(fields[0], Join(fields[1..], sep), sep);
        SplitJoinRoundTrip(fields[1..], sep);
        assert [fields[0]] + fields[1..] == fields;
      }
    } else {
      SplitPartsAreSeparatorFree(Join(fields, sep), sep);
    }
  }

  /** Every part produced by Split is free of the separator. */
  lemma {:induction false} SplitPartsAreSeparatorFree(s: string, sep: char)
    ensures SeparatorFree(Split(s, sep), sep)
    decreases |s|
  {
    if |s| > 0 {
      SplitPartsAreSeparatorFree(s[1..], sep);
      var rest := Split(s[1..], sep);
      if s[0] != sep {
        var parts := Split(s, sep);
        forall i | 0 <= i < |parts| ensures sep !in parts[i] {
          if i == 0 {
            assert parts[0] == [s[0]] + rest[0];
          } else {
            assert parts[i] == rest[i];
          }
        }
      } else {
        var parts := Split(s, sep);
        forall i | 0 <= i < |parts| ensures sep !in parts[i] {
          if i > 0 {
            assert parts[i] == rest[i - 1];
          }
        }
      }
    }
  }

  /** The separators in a joined line are the n - 1 inserted between the
      fields plus those already inside the values: nothing is escaped. */
  lemma {:induction false} JoinSeparatorCount(fields: seq<string>, sep: char)
    requires |fields| >= 1
    ensures multiset(Join(fields, sep))[sep] == |fields| - 1 + SeparatorsWithin(fields, sep)
    decreases |fields|
  {
    if |fields| == 1 {
      assert fields[1..] == [];
    } else {
      JoinSeparatorCount(fields[1..], sep);
      var j := Join(fields, sep);
      assert j == fields[0] + [sep] + Join(fields[1..], sep);
      assert multiset(j) == multiset(fields[0]) + multiset([sep]) + multiset(Join(fields[1..], sep));
    }
  }

  /** One value holding the separator makes the inner count positive. */
  lemma {:induction false} SeparatorsWithinPositive(fields: seq<string>, sep: char)
    requires !SeparatorFree(fields, sep)
    ensures SeparatorsWithin(fields, sep) >= 1
    decreases |fields|
  {
    if sep !in fields[0] {
      assert !SeparatorFree(fields[1..], sep) by {
        var k :| 0 <= k < |fields| && sep in fields[k];
        assert k != 0 && fields[1..][k - 1] == fields[k];
      }
      SeparatorsWithinPositive(fields[1..], sep);
    }
  }

  /** The number of parts is one more than the number of separators. */
  lemma {:induction false} SplitLength(s: string, sep: char)
    ensures |Split(s, sep)| == multiset(s)[sep] + 1
    decreases |s|
  {
    if |s| > 0 {
      SplitLength(s[1..], sep);
      assert s == [s[0]] + s[1..];
      assert multiset(s) == multiset([s[0]]) + multiset(s[1..]);
    }
  }

  /** The inner count is zero exactly when no field holds the character. */
  lemma {:induction false} SeparatorsWithinZero(fields: seq<string>, c: char)
    ensures SeparatorsWithin(fields, c) == 0 <==> SeparatorFree(fields, c)
    decreases |fields|
  {
    if |fields| > 0 {
      SeparatorsWithinZero(fields[1..], c);
      assert SeparatorFree(fields, c) <==> c !in fields[0] && SeparatorFree(fields[1..], c) by {
        assert forall i :: 0 < i < |fields| ==> fields[i] == fields[1..][i - 1];
        assert forall i :: 0 <= i < |fields| - 1 ==> fields[1..][i] == fields[i + 1];
      }
    }
  }

  /** A character other than the separator occurs in a joined line exactly
      as often as in the fields together. */
  lemma {:induction false} JoinCharCount(fields: seq<string>, sep: char, c: char)
    requires c != sep
    ensures multiset(Join(fields, sep))[c] == SeparatorsWithin(fields, c)
    decreases |fields|
  {
    if |fields| == 1 {
      assert fields[1..] == [];
    } else if |fields| > 1 {
      JoinCharCount(fields[1..], sep, c);
      var j := Join(fields, sep);
      assert j == fields[0] + [sep] + Join(fields[1..], sep);
      assert multiset(j) == multiset(fields[0]) + multiset([sep]) + multiset(Join(fields[1..], sep));
    }
  }

  /** Counting the inner separators one field from the end. */
  lemma {:induction false} SeparatorsWithinSnoc(fields: seq<string>, last: string, sep: char)
    ensures SeparatorsWithin(fields + [last], sep) == SeparatorsWithin(fields, sep) + multiset(last)[sep]
    decreases |fields|
  {
    var fs := fields + [last];
    if |fields| == 0 {
      assert fs[1..] == [];
    } else {
      assert fs[0] == fields[0] && fs[1..] == fields[1..] + [last];
      SeparatorsWithinSnoc(fields[1..], last, sep);
    }
  }
}

=== FILE: workbooks.dfy ===
/** Workbooks as the sheet-filling code sees them (ExcelUtility.cs,
    fillExcelWorksheet and excelFileFormatting, both overloads): an ordered
    list of named sheets, each a map from cell coordinates to text.
    Formatting (colours, fonts, column widths, selection) is not part of the
    model. */
module Workbooks {
  import opened Outcomes

  /** A 1-based cell address, as in `Cells[row, col]`. */
  datatype Cell = Cell(row: int, col: int)

  type Cells = map<Cell, string>

  datatype Sheet = Sheet(name: string, cells: Cells)

  type Workbook = seq<Sheet>

  /** The names a new workbook gives its placeholder sheets, which the fill
      deletes. */
  predicate IsDefaultName(name: string) {
    name == "Sheet1" || name == "Sheet2" || name == "Sheet3"
  }

  /** The host never lets two sheets of one workbook share a name. */
  predicate UniqueNames(wb: Workbook) {
    forall i, j :: 0 <= i < j < |wb| ==> wb[i].name != wb[j].name
  }

  predicate HasSheet(wb: Workbook, name: string) {
    exists i :: 0 <= i < |wb| && wb[i].name == name
  }

  predicate NoDefaultSheets(wb: Workbook) {
    forall i :: 0 <= i < |wb| ==> !IsDefaultName(wb[i].name)
  }

  /** The sheet lookup by exact, case-sensitive name: the first position
      holding that name. */
  function FindSheet(wb: Workbook, name: string): (r: Option<nat>)
    ensures r.None? <==> !HasSheet(wb, name)
    ensures r.Some? ==> r.value < |wb| && wb[r.value].name == name
    ensures r.Some? ==> forall i :: 0 <= i < r.value ==> wb[i].name != name
    decreases |wb|
  {
    if |wb| == 0 then None
    else if wb[0].name == name then Some(0)
    else match FindSheet(wb[1..], name)
      case None =>
        assert forall i :: 1 <= i < |wb| ==> wb[i] == wb[1..][i - 1];
        None
      case Some(i) =>
        assert wb[i + 1] == wb[1..][i];
        assert forall k :: 1 <= k < i + 1 ==> wb[k] == wb[1..][k - 1];
        Some(i + 1)
  }

  /** Which sheets a filter keeps. */
  datatype Criterion =
    | NotDefault                 // every sheet except the placeholders
    | Bystander(target: string)  // sheets a fill of `target` must leave alone

  predicate Keeps(c: Criterion, s: Sheet) {
    match c
    case NotDefault => !IsDefaultName(s.name)
    case Bystander(target) => s.name != target && !IsDefaultName(s.name)
  }

  /** The sheets satisfying the criterion, in workbook order. */
  function Filter(wb: Workbook, c: Criterion): Workbook
    decreases |wb|
  {
    if |wb| == 0 then []
    else if Keeps(c, wb[0]) then [wb[0]] + Filter(wb[1..], c)
    else Filter(wb[1..], c)
  }

  /** A filter keeps exactly the sheets satisfying its criterion. */
  lemma {:induction false} FilterMembers(wb: Workbook, c: Criterion)
    ensures forall s :: s in Filter(wb, c) <==> s in wb && Keeps(c, s)
    decreases |wb|
  {
    if |wb| > 0 {
      FilterMembers(wb[1..], c);
      assert forall s :: s in wb <==> s == wb[0] || s in wb[1..] by {
        assert wb == [wb[0]] + wb[1..];
      }
    }
  }

  /** The deletion loop over Sheet1, Sheet2 and Sheet3. */
  function RemoveDefaultSheets(wb: Workbook): (r: Workbook)
    ensures NoDefaultSheets(r)
    ensures forall s :: s in r <==> s in wb && !IsDefaultName(s.name)
    ensures forall n :: Bystanders(r, n) == Bystanders(wb, n)
  {
    var r := Filter(wb, NotDefault);
    FilterMembers(wb, NotDefault);
    DefaultsFilterKeepsBystanders(wb);
    assert forall i :: 0 <= i < |r| ==> r[i] in r;
    r
  }

  /** The sheets a fill of `target` must leave exactly as they were. */
  function Bystanders(wb: Workbook, target: string): Workbook {
    Filter(wb, Bystander(target))
  }

  /** Writes `values` left to right from `Cells[row, col]`. */
  function WriteRow(cells: Cells, row: int, col: int, values: seq<string>): (r: Cells)
    ensures forall k: Cell :: k in r <==> k in cells || (k.row == row && col <= k.col < col + |values|)
    ensures forall k: Cell :: k.row == row && col <= k.col < col + |values| ==> r[k] == values[k.col - col]
    ensures forall k: Cell :: k in cells && !(k.row == row && col <= k.col < col + |values|) ==> r[k] == cells[k]
    decreases |values|
  {
    if |values| == 0 then cells
    else WriteRow(cells[Cell(row, col) := values[0]], row, col + 1, values[1..])
  }

  /** The cell `k` lies in the block of `rows` pasted at `Cells[row, col]`. */
  predicate InBlock(k: Cell, row: int, col: int, rows: seq<seq<string>>) {
    row <= k.row < row + |rows| && col <= k.col < col + |rows[k.row - row]|
  }

  /** CopyFromRecordset: pastes the rows as one block from `Cells[row, col]`. */
  function WriteBlock(cells: Cells, row: int, col: int, rows: seq<seq<string>>): (r: Cells)
    ensures forall k: Cell :: k in r <==> k in cells || InBlock(k, row, col, rows)
    ensures forall k: Cell :: InBlock(k, row, col, rows) ==> r[k] == rows[k.row - row][k.col - col]
    ensures forall k: Cell :: k in cells && !InBlock(k, row, col, rows) ==> r[k] == cells[k]
    decreases |rows|
  {
    if |rows| == 0 then cells
    else
      var first := WriteRow(cells, row, col, rows[0]);
      var r := WriteBlock(first, row + 1, col, rows[1..]);
      WriteBlockStep(cells, row, col, rows, first, r);
      r
  }

  /** What `WriteRow` promises, gathered under one name. */
  ghost predicate RowWritten(cells: Cells, row: int, col: int, values: seq<string>, r: Cells) {
    && (forall k: Cell :: k in r <==> k in cells || (k.row == row && col <= k.col < col + |values|))
    && (forall k: Cell :: k.row == row && col <= k.col < col + |values| ==> r[k] == values[k.col - col])
    && (forall k: Cell :: k in cells && !(k.row == row && col <= k.col < col + |values|) ==> r[k] == cells[k])
  }

  /** What `WriteBlock` promises, gathered under one name. */
  ghost predicate BlockWritten(cells: Cells, row: int, col: int, rows: seq<seq<string>>, r: Cells) {
    && (forall k: Cell :: k in r <==> k in cells || InBlock(k, row, col, rows))
    && (forall k: Cell :: InBlock(k, row, col, rows) ==> k in r && r[k] == rows[k.row - row][k.col - col])
    && (forall k: Cell :: k in cells && !InBlock(k, row, col, rows) ==> k in r && r[k] == cells[k])
  }

  /** Pasting the first row and then the block of the rest pastes the whole block. */
  lemma WriteBlockStep(cells: Cells, row: int, col: int, rows: seq<seq<string>>, first: Cells, r: Cells)
    requires |rows| >= 1 && RowWritten(cells, row, col, rows[0], first)
    requires BlockWritten(first, row + 1, col, rows[1..], r)
    ensures BlockWritten(cells, row, col, rows, r)
  {
    assert forall k: Cell :: InBlock(k, row + 1, col, rows[1..]) <==> InBlock(k, row, col, rows) && k.row != row;
  }

  /** excelFileFormatting on a cleared sheet: the field names across row 1
      from column 1, and the data block from row 2, column 1; no other cell
      holds anything. */
  function HeaderAndData(header: seq<string>, rows: seq<seq<string>>): (r: Cells)
    ensures forall i :: 0 <= i < |header| ==> Cell(1, i + 1) in r && r[Cell(1, i + 1)] == header[i]
    ensures forall j, c :: 0 <= j < |rows| && 0 <= c < |rows[j]| ==>
      Cell(j + 2, c + 1) in r && r[Cell(j + 2, c + 1)] == rows[j][c]
    ensures forall k: Cell :: k in r ==>
      (k.row == 1 && 1 <= k.col <= |header|) || (2 <= k.row < |rows| + 2 && 1 <= k.col <= |rows[k.row - 2]|)
  {
    var r := WriteBlock(WriteRow(map[], 1, 1, header), 2, 1, rows);
    HeaderAndDataShape(header, rows);
    r
  }

  lemma HeaderAndDataShape(header: seq<string>, rows: seq<seq<string>>)
    ensures var r := WriteBlock(WriteRow(map[], 1, 1, header), 2, 1, rows);
      && (forall i :: 0 <= i < |header| ==> Cell(1, i + 1) in r && r[Cell(1, i + 1)] == header[i])
      && (forall j, c :: 0 <= j < |rows| && 0 <= c < |rows[j]| ==>
            Cell(j + 2, c + 1) in r && r[Cell(j + 2, c + 1)] == rows[j][c])
      && (forall k: Cell :: k in r ==>
            (k.row == 1 && 1 <= k.col <= |header|) || (2 <= k.row < |rows| + 2 && 1 <= k.col <= |rows[k.row - 2]|))
  {
    var h := WriteRow(map[], 1, 1, header);
    var r := WriteBlock(h, 2, 1, rows);
    forall i | 0 <= i < |header| ensures Cell(1, i + 1) in r && r[Cell(1, i + 1)] == header[i] {
      var k := Cell(1, i + 1);
      assert k in h && h[k] == header[i];
      assert !InBlock(k, 2, 1, rows);
    }
    forall j, c | 0 <= j < |rows| && 0 <= c < |rows[j]|
      ensures Cell(j + 2, c + 1) in r && r[Cell(j + 2, c + 1)] == rows[j][c]
    {
      assert InBlock(Cell(j + 2, c + 1), 2, 1, rows);
    }
    forall k: Cell | k in r
      ensures (k.row == 1 && 1 <= k.col <= |header|) || (2 <= k.row < |rows| + 2 && 1 <= k.col <= |rows[k.row - 2]|)
    {
      if !InBlock(k, 2, 1, rows) {
        assert k in h;
      }
    }
  }

  /** What a fill leaves behind: the workbook, and whether it was saved. */
  datatype Filled = Filled(workbook: Workbook, saved: bool)

  /** fillExcelWorksheet: find the sheet by exact name and clear it, or add a
      new sheet with that name at position `at` (the host's choice); delete
      every placeholder sheet; write the header and data onto the sheet with
      that name if it still exists; save when asked. */
  function FillWorksheet(wb: Workbook, name: string, header: seq<string>, rows: seq<seq<string>>,
                         save: bool, at: nat): (r: Filled)
    requires UniqueNames(wb)
    ensures UniqueNames(r.workbook) && NoDefaultSheets(r.workbook)
    ensures Bystanders(r.workbook, name) == Bystanders(wb, name)
    ensures |r.workbook| == |Bystanders(wb, name)| + (if IsDefaultName(name) then 0 else 1)
    ensures !IsDefaultName(name) ==>
      var k := FindSheet(r.workbook, name);
      k.Some? && r.workbook[k.value] == Sheet(name, HeaderAndData(header, rows))
    ensures r.saved == save
  {
    var placed := Place(wb, name, at);
    var pruned := RemoveDefaultSheets(placed);
    PlaceKeepsBystanders(wb, name, at);
    FilterKeepsUnique(placed, NotDefault);
    var written := Overwrite(pruned, name, HeaderAndData(header, rows));
    assert !IsDefaultName(name) ==> Sheet(name, map[]) in pruned;
    SizeOfBystanders(written, name);
    Filled(written, save)
  }

  /** Step one of the fill: the existing sheet with that name is cleared in
      place, or a new empty one is inserted. */
  function Place(wb: Workbook, name: string, at: nat): (r: Workbook)
    requires UniqueNames(wb)
    ensures UniqueNames(r)
    ensures Sheet(name, map[]) in r
    ensures HasSheet(wb, name) ==> r == wb[FindSheet(wb, name).value := Sheet(name, map[])]
    ensures !HasSheet(wb, name) ==> exists k :: 0 <= k <= |wb| && r == wb[..k] + [Sheet(name, map[])] + wb[k..]
  {
    match FindSheet(wb, name)
    case Some(i) =>
      var r := wb[i := Sheet(name, map[])];
      assert r[i] == Sheet(name, map[]);
      r
    case None =>
      var k := if at <= |wb| then at else |wb|;
      var r := wb[..k] + [Sheet(name, map[])] + wb[k..];
      assert forall i :: 0 <= i < |r| ==> r[i] == (if i < k then wb[i] else if i == k then Sheet(name, map[]) else wb[i - 1]);
      assert r[k] == Sheet(name, map[]);
      r
  }

  /** The write step: the sheet named `name`, if any, receives `cells`. */
  function Overwrite(wb: Workbook, name: string, cells: Cells): (r: Workbook)
    requires UniqueNames(wb) && NoDefaultSheets(wb)
    ensures UniqueNames(r) && NoDefaultSheets(r)
    ensures Bystanders(r, name) == Bystanders(wb, name)
    ensures HasSheet(wb, name) ==> var k := FindSheet(r, name); k.Some? && r[k.value] == Sheet(name, cells)
    ensures HasSheet(r, name) <==> HasSheet(wb, name)
  {
    match FindSheet(wb, name)
    case None => wb
    case Some(j) =>
      var r := wb[j := Sheet(name, cells)];
      ReplaceKeepsBystanders(wb, j, Sheet(name, cells), name);
      assert r[j].name == name;
      r
  }

  /** Filtering distributes over concatenation. */
  lemma {:induction false} FilterConcat(a: Workbook, b: Workbook, c: Criterion)
    ensures Filter(a + b, c) == Filter(a, c) + Filter(b, c)
    decreases |a|
  {
    if |a| > 0 {
      assert (a + b)[0] == a[0];
      assert (a + b)[1..] == a[1..] + b;
      FilterConcat(a[1..], b, c);
    } else {
      assert a + b == b;
    }
  }

  /** A filter over a single sheet. */
  lemma FilterSingle(s: Sheet, c: Criterion)
    ensures Filter([s], c) == if Keeps(c, s) then [s] else []
  {
    assert [s][1..] == [];
  }

  /** Filtering a workbook split around one sheet. */
  lemma FilterAround(a: Workbook, s: Sheet, b: Workbook, c: Criterion)
    ensures Filter(a + [s] + b, c) == Filter(a, c) + (if Keeps(c, s) then [s] else []) + Filter(b, c)
  {
    FilterConcat(a + [s], b, c);
    FilterConcat(a, [s], c);
    FilterSingle(s, c);
  }

  /** A subsequence of a workbook with unique names has unique names. */
  lemma {:induction false} FilterKeepsUnique(wb: Workbook, c: Criterion)
    requires UniqueNames(wb)
    ensures UniqueNames(Filter(wb, c))
    decreases |wb|
  {
    if |wb| > 0 {
      FilterKeepsUnique(wb[1..], c);
      FilterMembers(wb[1..], c);
      var rest := Filter(wb[1..], c);
      if Keeps(c, wb[0]) {
        var r := [wb[0]] + rest;
        forall i, j | 0 <= i < j < |r| ensures r[i].name != r[j].name {
          if i == 0 {
            assert r[j] in wb[1..];
            var m :| 0 <= m < |wb[1..]| && wb[1..][m] == r[j];
            assert wb[m + 1] == r[j];
          } else {
            assert r[i] == rest[i - 1] && r[j] == rest[j - 1];
          }
        }
      }
    }
  }

  /** Removing placeholders first does not change the bystanders of any
      target, so the surviving sheets keep their order. */
  lemma DefaultsFilterKeepsBystanders(wb: Workbook)
    ensures forall n :: Bystanders(Filter(wb, NotDefault), n) == Bystanders(wb, n)
  {
    forall n ensures Bystanders(Filter(wb, NotDefault), n) == Bystanders(wb, n) {
      RemoveDefaultsKeepsBystanders(wb, n);
    }
  }

  /** Removing placeholders first does not change the bystanders. */
  lemma {:induction false} RemoveDefaultsKeepsBystanders(wb: Workbook, name: string)
    ensures Bystanders(Filter(wb, NotDefault), name) == Bystanders(wb, name)
    decreases |wb|
  {
    if |wb| > 0 {
      RemoveDefaultsKeepsBystanders(wb[1..], name);
      if !IsDefaultName(wb[0].name) {
        assert Filter(wb, NotDefault) == [wb[0]] + Filter(wb[1..], NotDefault);
        FilterConcat([wb[0]], Filter(wb[1..], NotDefault), Bystander(name));
        FilterSingle(wb[0], Bystander(name));
      }
    }
  }

  /** Replacing a sheet by one with the target's name, where the target's
      name was, does not change the bystanders. */
  lemma ReplaceKeepsBystanders(wb: Workbook, j: nat, s: Sheet, name: string)
    requires j < |wb| && wb[j].name == name && s.name == name
    ensures Bystanders(wb[j := s], name) == Bystanders(wb, name)
  {
    assert wb == wb[..j] + [wb[j]] + wb[j + 1..];
    assert wb[j := s] == wb[..j] + [s] + wb[j + 1..];
    FilterAround(wb[..j], wb[j], wb[j + 1..], Bystander(name));
    FilterAround(wb[..j], s, wb[j + 1..], Bystander(name));
  }

  /** Clearing or inserting the target does not change the bystanders. */
  lemma PlaceKeepsBystanders(wb: Workbook, name: string, at: nat)
    requires UniqueNames(wb)
    ensures Bystanders(Place(wb, name, at), name) == Bystanders(wb, name)
  {
    var f := FindSheet(wb, name);
    if f.Some? {
      ReplaceKeepsBystanders(wb, f.value, Sheet(name, map[]), name);
    } else {
      var k := if at <= |wb| then at else |wb|;
      assert Place(wb, name, at) == wb[..k] + [Sheet(name, map[])] + wb[k..];
      InsertKeepsBystanders(wb, k, Sheet(name, map[]), name);
    }
  }

  /** Inserting a sheet with the target's name anywhere does not change the
      bystanders. */
  lemma InsertKeepsBystanders(wb: Workbook, k: nat, s: Sheet, name: string)
    requires k <= |wb| && s.name == name
    ensures Bystanders(wb[..k] + [s] + wb[k..], name) == Bystanders(wb, name)
  {
    FilterAround(wb[..k], s, wb[k..], Bystander(name));
    assert wb == wb[..k] + wb[k..];
    FilterConcat(wb[..k], wb[k..], Bystander(name));
  }

  /** A placeholder-free workbook with unique names holds its bystanders and,
      when present, the one sheet with the target's name. */
  lemma {:induction false} SizeOfBystanders(wb: Workbook, name: string)
    requires UniqueNames(wb) && NoDefaultSheets(wb)
    ensures |wb| == |Bystanders(wb, name)| + (if HasSheet(wb, name) then 1 else 0)
    decreases |wb|
  {
    if |wb| > 0 {
      var t := wb[1..];
      assert UniqueNames(t) && NoDefaultSheets(t) by {
        assert forall i :: 0 <= i < |t| ==> t[i] == wb[i + 1];
      }
      SizeOfBystanders(t, name);
      assert HasSheet(wb, name) <==> wb[0].name == name || HasSheet(t, name) by {
        assert forall i :: 0 < i < |wb| ==> wb[i] == t[i - 1];
      }
      if wb[0].name == name {
        assert !HasSheet(t, name) by {
          assert forall i :: 0 <= i < |t| ==> t[i] == wb[i + 1];
        }
      }
    }
  }

  /** Filling the same sheet twice with the same data gives the same
      workbook as filling it once: an existing sheet is reused and cleared,
      never duplicated. */
  lemma FillIdempotent(wb: Workbook, name: string, header: seq<string>, rows: seq<seq<string>>,
                       save: bool, at: nat, at2: nat)
    requires UniqueNames(wb)
    ensures var once := FillWorksheet(wb, name, header, rows, save, at).workbook;
      FillWorksheet(once, name, header, rows, save, at2).workbook == once
  {
    var once := FillWorksheet(wb, name, header, rows, save, at).workbook;
    if IsDefaultName(name) {
      RefillPlaceholderName(once, name, header, rows, save, at2);
    } else {
      RefillExisting(once, name, header, rows, save, at2);
    }
  }

  /** Refilling under a placeholder name: the new sheet is inserted and
      deleted again, and nothing else changes. */
  lemma RefillPlaceholderName(once: Workbook, name: string, header: seq<string>, rows: seq<seq<string>>,
                              save: bool, at: nat)
    requires UniqueNames(once) && NoDefaultSheets(once) && IsDefaultName(name)
    ensures FillWorksheet(once, name, header, rows, save, at).workbook == once
  {
    assert !HasSheet(once, name);
    var k := if at <= |once| then at else |once|;
    var placed := Place(once, name, at);
    assert placed == once[..k] + [Sheet(name, map[])] + once[k..];
    RemoveInsertedPlaceholder(once, k, Sheet(name, map[]));
    var pruned := RemoveDefaultSheets(placed);
    assert pruned == once;
    assert FindSheet(pruned, name).None?;
    assert Overwrite(pruned, name, HeaderAndData(header, rows)) == once;
  }

  /** Deleting placeholders undoes the insertion of a placeholder into a
      workbook that had none. */
  lemma RemoveInsertedPlaceholder(wb: Workbook, k: nat, s: Sheet)
    requires NoDefaultSheets(wb) && k <= |wb| && IsDefaultName(s.name)
    ensures Filter(wb[..k] + [s] + wb[k..], NotDefault) == wb
  {
    var a, b := wb[..k], wb[k..];
    KeptHalves(wb, k);
    FilterSkips(a, s, b, NotDefault);
    assert a + b == wb;
  }

  /** A sheet the criterion rejects leaves no trace between its neighbours. */
  lemma FilterSkips(a: Workbook, s: Sheet, b: Workbook, c: Criterion)
    requires !Keeps(c, s)
    ensures Filter(a + [s] + b, c) == Filter(a, c) + Filter(b, c)
  {
    FilterAround(a, s, b, c);
  }

  /** Both halves of a placeholder-free workbook survive the deletion. */
  lemma KeptHalves(wb: Workbook, k: nat)
    requires NoDefaultSheets(wb) && k <= |wb|
    ensures Filter(wb[..k], NotDefault) == wb[..k] && Filter(wb[k..], NotDefault) == wb[k..]
  {
    var a, b := wb[..k], wb[k..];
    assert forall i :: 0 <= i < |a| ==> a[i] == wb[i];
    assert forall i :: 0 <= i < |b| ==> b[i] == wb[k + i];
    FilterAllKept(a, NotDefault);
    FilterAllKept(b, NotDefault);
  }

  /** Refilling an existing sheet: it is cleared and rewritten in place. */
  lemma RefillExisting(once: Workbook, name: string, header: seq<string>, rows: seq<seq<string>>,
                       save: bool, at: nat)
    requires UniqueNames(once) && NoDefaultSheets(once) && !IsDefaultName(name)
    requires var k := FindSheet(once, name); k.Some? && once[k.value] == Sheet(name, HeaderAndData(header, rows))
    ensures FillWorksheet(once, name, header, rows, save, at).workbook == once
  {
    var cells := HeaderAndData(header, rows);
    var j := FindSheet(once, name).value;
    var placed := Place(once, name, at);
    assert placed == once[j := Sheet(name, map[])];
    ClearedStaysFirst(once, name, j);
    FilterAllKept(placed, NotDefault);
    var pruned := RemoveDefaultSheets(placed);
    assert pruned == placed;
    FillSteps(once, name, header, rows, save, at);
    assert Overwrite(pruned, name, cells) == placed[j := Sheet(name, cells)];
    assert placed[j := Sheet(name, cells)] == once;
  }

  /** The fill is the clear-or-insert step, then the placeholder deletion,
      then the write. */
  lemma FillSteps(wb: Workbook, name: string, header: seq<string>, rows: seq<seq<string>>, save: bool, at: nat)
    requires UniqueNames(wb)
    ensures UniqueNames(RemoveDefaultSheets(Place(wb, name, at)))
    ensures FillWorksheet(wb, name, header, rows, save, at).workbook
            == Overwrite(RemoveDefaultSheets(Place(wb, name, at)), name, HeaderAndData(header, rows))
  {
    FilterKeepsUnique(Place(wb, name, at), NotDefault);
  }

  /** Clearing the first sheet with a name in place keeps it the first. */
  lemma ClearedStaysFirst(wb: Workbook, name: string, j: nat)
    requires FindSheet(wb, name) == Some(j)
    ensures FindSheet(wb[j := Sheet(name, map[])], name) == Some(j)
  {
    var placed := wb[j := Sheet(name, map[])];
    assert forall i :: 0 <= i < j ==> placed[i] == wb[i];
    FindSheetFirst(placed, name, j);
  }

  /** The first position holding a name is what FindSheet returns. */
  lemma {:induction false} FindSheetFirst(wb: Workbook, name: string, j: nat)
    requires j < |wb| && wb[j].name == name
    requires forall i :: 0 <= i < j ==> wb[i].name != name
    ensures FindSheet(wb, name) == Some(j)
    decreases j
  {
    if j > 0 {
      assert forall i :: 0 <= i < j - 1 ==> wb[1..][i] == wb[i + 1];
      FindSheetFirst(wb[1..], name, j - 1);
    }
  }

  /** A filter that keeps every sheet returns the workbook unchanged. */
  lemma {:induction false} FilterAllKept(wb: Workbook, c: Criterion)
    requires forall i :: 0 <= i < |wb| ==> Keeps(c, wb[i])
    ensures Filter(wb, c) == wb
    decreases |wb|
  {
    if |wb| > 0 {
      assert forall i :: 0 <= i < |wb| - 1 ==> wb[1..][i] == wb[i + 1];
      FilterAllKept(wb[1..], c);
    }
  }

  /** A new workbook as the host creates it: three empty placeholder sheets. */
  const NewWorkbook: Workbook := [Sheet("Sheet1", map[]), Sheet("Sheet2", map[]), Sheet("Sheet3", map[])]

  /** Exporting into a new workbook leaves exactly the one written sheet. */
  lemma FillNewWorkbook(name: string, header: seq<string>, rows: seq<seq<string>>, save: bool, at: nat)
    requires !IsDefaultName(name)
    ensures FillWorksheet(NewWorkbook, name, header, rows, save, at).workbook == [Sheet(name, HeaderAndData(header, rows))]
  {
    NewWorkbookHasNoBystanders(name);
    var r := FillWorksheet(NewWorkbook, name, header, rows, save, at).workbook;
    assert |r| == 1;
    var k := FindSheet(r, name);
    assert k.Some? && k.value == 0;
  }

  /** Every sheet of a new workbook is a placeholder. */
  lemma NewWorkbookHasNoBystanders(name: string)
    ensures Bystanders(NewWorkbook, name) == []
  {
    var w := NewWorkbook;
    assert IsDefaultName(w[0].name) && IsDefaultName(w[1].name) && IsDefaultName(w[2].name);
    assert Filter(w[1..][1..][1..], Bystander(name)) == [] by { assert w[1..][1..][1..] == []; }
    assert Filter(w[1..][1..], Bystander(name)) == [];
    assert Filter(w[1..], Bystander(name)) == [];
  }
}
